=== FILE: README.md ===
# CodeBookMaker notebook generator, modelled in Dafny

CodeBookMaker is a small web service. A user uploads a `.zip` archive of
source code and gets back a PDF "code notebook". Every directory of the
archive becomes a chapter. A reserved file (`README.md`, `README.txt` or
`description.txt`) supplies the chapter's description. Every other file is
listed in a table of contents and printed in the body with syntax
highlighting.

This project models the pure core of `app.py`:

- the upload filter `allowed_file`;
- the reserved description names `DESCRIPTION_FILES`;
- the notebook title default in `upload_file`;
- the part of `generate_notebook` that turns the walked directory tree into
  the HTML document: grouping files into chapters, picking descriptions,
  the table of contents and the body.

The HTML is modelled as a sequence of `Assembly.Element` values, one per
string the generator appends, with the fixed stylesheet folded into the
first element. File-system traversal, file reads and the highlighter are
inputs:

- the walk is a sequence of `Walker.DirRecord`, in visiting order, each with
  its files and what reading each one yields;
- the highlighter is a function that may fail (`Assembly.Highlighter`).

Modules:

- `Wrappers`: `Option` and `Result`.
- `Text`: Python's whitespace set and `str.strip()`, ASCII lower-casing,
  Python's code-point string order, and decimal rendering of counters.
- `Sorting`: `sorted()` by a string key, as a stable insertion sort.
- `Upload`: `allowed_file` and the title default.
- `Walker`: the `os.walk` loop that fills `folder_map` and
  `folder_descriptions`. The loop is proved against reference definitions
  (`Visited`, `Gather`, `LastDescription`) that speak about the walked
  directories directly.
- `Assembly`: the document for a given chapter order, with its anchors,
  links, headings and orderings.
- `Notebook`: the whole pipeline (walk, `sorted(folder_map.items())`,
  assembly) and its end-to-end properties.
- `Walkthrough`: one concrete archive carried all the way through.

Two behaviours of the code are modelled as written, not corrected:

- The table of contents counts chapters from 0 and the body counts from 1.
  So the link `#file{k}-{name}` of a file in chapter `k` names the heading
  the body gives a same-named file of the previous chapter. For the first
  chapter it names no heading at all. `Assembly.TocHrefTargets` and
  `Assembly.TocLinkResolution` state this, and `Walkthrough.NotebookExample`
  shows it on an archive.
- The table of contents is built before any file is read. So it lists files
  that the body later skips because they cannot be read or highlighted.
  `Assembly.SkippedFileStillListed` states this.

One error path is not obvious. The chosen description file is opened outside
the per-file `try` (`app.py:54-56`). A failure there aborts the whole
notebook. The model returns it as `Walker.WalkError`. The per-file reads and
highlighting of the body sit inside the `try` (`app.py:87-95`), so a failure
there only skips that file.

## Model

| member | source | states |
|---|---|---|
| Upload.AllowedFile | app.py:21-22 | A file name is accepted exactly when it ends in `.zip`, in any mix of letter cases. A name without a dot is rejected. |
| Upload.ExtensionCheckMeansZipSuffix | app.py:22 | The test "has a dot, and the text after the last dot lower-cases to an allowed extension" equals the `.zip` suffix test. |
| Upload.Extension | app.py:22 | `rsplit('.', 1)[1]`: the part of a dotted name after its last dot. It is a proper suffix of the name, right after a dot, and holds no dot. |
| Upload.LowerIsZip | app.py:22 | An extension lower-cases to `zip` exactly when it has three letters, `z`, `i` and `p`, each in either case. |
| Upload.LastDot | app.py:22 | `rsplit('.', 1)` splits at the last dot: the result is absent exactly when the name has no dot; otherwise it points at a dot with no dot after it. |
| Upload.AcceptedNames | app.py:21-22 | `A.ZIP` and `.zip` are accepted: the case of the extension does not matter and the stem may be empty. |
| Upload.RefusedNames | app.py:21-22 | `zip` (no dot) and `a.zip.txt` (something after `.zip`) are refused. |
| Upload.NotebookTitle | app.py:138-140 | The title is never empty and has no surrounding whitespace. A missing or all-whitespace field gives `My Notebook`; any other field gives the field stripped. |
| Upload.NotebookTitleKeepsTypedTitle | app.py:138 | A non-empty trimmed title padded with whitespace comes back as typed. |
| Text.Strip | app.py:138 | `strip()` leaves a result with no whitespace at either end. The result is empty exactly when the input is all whitespace. It is the input with its leading and trailing whitespace removed. |
| Text.StripPadded | app.py:56 | Stripping `w1 + t + w2`, with whitespace-only `w1` and `w2` and trimmed `t`, gives back `t`. |
| Text.StripIdempotent | app.py:56 | Stripping twice is the same as stripping once. |
| Text.IsSpace | app.py:56 | The characters `str.strip()` removes: Python's whitespace set (space, tab to carriage return, the separators `\x1c`-`\x1f`, `\x85`, no-break space and the Unicode space characters). A definition; `Text.Strip` and `Text.StripPadded` state what stripping does with it. |
| Text.Lower | app.py:22 | `lower()` keeps the length, leaves no capital ASCII letter, turns each capital into its small letter and keeps every other character as it is. |
| Text.LowerIdempotent | app.py:22 | Lower-casing twice is the same as lower-casing once. |
| Text.LessEqReflexive | app.py:59 | Python's string `<=` is reflexive. |
| Text.LessEqTotal | app.py:59 | Any two strings are comparable. |
| Text.LessEqAntisymmetric | app.py:59 | Two strings each `<=` the other are equal. |
| Text.LessEqTransitive | app.py:59 | Python's string `<=` is transitive. |
| Text.LessEq | app.py:59 | Python's `<=` on strings, which `sorted()` orders file names by here and chapter keys by at app.py:67: lexicographic by code point, a proper prefix first. A definition; `Text.LessEqReflexive`, `Text.LessEqTotal`, `Text.LessEqAntisymmetric` and `Text.LessEqTransitive` state that it is a total order. |
| Text.NatToStringParses | app.py:71 | The decimal rendering of a counter is a non-empty string of digits that parses back to the counter. |
| Text.NatToStringInjective | app.py:86 | Different counters render differently. |
| Text.NatToString | app.py:71 | The decimal rendering of a counter in an f-string. A definition; `Text.NatToStringParses` and `Text.NatToStringInjective` state its properties. |
| Sorting.Insert | app.py:59 | Inserting into a sorted sequence keeps it sorted and adds exactly the new element. |
| Sorting.Sort | app.py:59 | `sorted()` returns its input rearranged (same multiset) in ascending key order. |
| Sorting.SortDistinctIsStrict | app.py:67 | When keys are pairwise distinct, the sorted sequence is strictly ascending. |
| Walker.ChapterKey | app.py:48-49 | The relative path `.` becomes `Root`. Any other path keeps its length, with each backslash turned into `/`. No key contains a backslash. |
| Walker.ChapterKeysCollide | app.py:48-49 | Two backslash-free paths share a chapter only when they are equal, or when one is `.` and the other is a top-level folder named `Root`. |
| Walker.DescriptionFiles | app.py:18 | The three reserved description names `README.md`, `README.txt` and `description.txt`, in priority order. A definition; `Walker.FindDescription` states that the first present one in this order is chosen, and `Walker.GatherListable` and `Walker.NoReservedFileListed` that none of them is ever listed in a chapter. |
| Walker.HasFile | app.py:54 | `os.path.exists` on a name in the directory: some listed file has that name. A definition; `Walker.Lookup`, `Walker.FindDescription` and `Walker.BadDescriptionMeans` state what finding it means. |
| Walker.Lookup | app.py:53-54 | Finding a file by name succeeds exactly when a file of that name is listed, and returns such a file. |
| Walker.FirstPresent | app.py:52-57 | The loop over candidate names stops at the first one present. It finds nothing exactly when no candidate is present. |
| Walker.FindDescription | app.py:52-57 | The description file is the listed file with the first reserved name present; none when no reserved name is present. |
| Walker.BadDescription | app.py:52-56 | A directory whose chosen description file cannot be read, which aborts the notebook. A definition; `Walker.BadDescriptionMeans` states what it means. |
| Walker.BadDescriptionMeans | app.py:52-56 | A bad directory lists an unreadable file with a reserved name. A directory whose reserved files can all be read is never bad. |
| Walker.Describe | app.py:52-57 | `folder_descriptions` after one directory: the entry for its key is set to the stripped text of the chosen file, when there is one. A definition; `Walker.DescribeFrame` states its properties. |
| Walker.DescribeFrame | app.py:52-57 | Describing keeps every old entry and changes none but the directory's own key. The key has an entry afterwards exactly when it had one or the directory has a description file. A new text has no surrounding whitespace. |
| Walker.Visit | app.py:47-62 | One directory of the walk fails exactly when its chosen description file cannot be read, and then names the directory's chapter and a reserved file. Otherwise the directory's chapter exists afterwards and no other new one; distinct names stay distinct, and every described chapter stays a chapter. |
| Walker.VisitKeepsListedFiles | app.py:50-61 | On distinctly named chapters, one visit adds exactly the directory's listing to all files, none lost or repeated. |
| Walker.Walk | app.py:47-62 | A finished walk has distinct chapter names, and every chapter with a description is one of its chapters. |
| Walker.WalkKeepsListedFiles | app.py:47-62 | The chapters of a finished walk hold together exactly the files the directories list, none lost or repeated. |
| Walker.Listable | app.py:60 | The test `filename not in DESCRIPTION_FILES`: a file may be listed exactly when its name is not reserved. A definition; `Walker.KeepListable` and `Walker.GatherListable` state that exactly the listable files are kept. |
| Walker.KeepListable | app.py:60-61 | Dropping reserved names keeps every other file with its multiplicity and removes every reserved one. |
| Walker.KeepListableSorted | app.py:59-61 | Dropping files from a name-sorted listing leaves it name-sorted. |
| Walker.Listing | app.py:59-61 | A directory contributes its non-reserved files in ascending name order, each as often as it is listed. |
| Walker.SetDefault | app.py:50 | `setdefault(key, [])` adds the key exactly when missing, at the end with no files. Existing chapters are unchanged and names stay distinct. |
| Walker.AppendFiles | app.py:61 | Appending a directory's files under its chapter key. A definition; `Walker.AppendFilesNames` and `Walker.AppendFilesGrows` state that the chapters stay the same and that all files grow by exactly the appended ones. |
| Walker.AppendFilesNames | app.py:61 | `extend` under a key keeps every chapter name, so distinct names stay distinct and the same chapters exist. |
| Walker.AppendFilesGrows | app.py:61 | On distinctly named chapters, appending under a key adds exactly the new files to all files when a chapter has the key, and nothing otherwise. |
| Walker.WalkFailsIff | app.py:52-57 | The walk fails exactly when some directory's chosen description file cannot be read. |
| Walker.WalkFailureIsFirst | app.py:52-57 | A failure names the chapter and the file of the first such directory. No earlier directory is bad. |
| Walker.FirstBadExtends | app.py:52-57 | The first directory with an unreadable description stays the first when more directories follow. |
| Walker.FirstBadIsLast | app.py:52-57 | When the walk of the earlier directories succeeded, a failure is the newest directory's, naming its chapter and description file. |
| Walker.WalkChapterKeys | app.py:47-57 | When no chosen description file is unreadable the walk succeeds; its chapter names are distinct and are exactly the keys of the visited directories, including directories that contribute no file. |
| Walker.WalkChapterGather | app.py:47-62 | Each chapter holds the listings of all directories with its key, concatenated in walk order. A folder named `Root` shares the top directory's chapter. |
| Walker.WalkDescriptionsLast | app.py:52-57 | A chapter has a description exactly when some directory with its key has a reserved file. The text is the stripped content of the chosen file of the last such directory: a later directory overwrites an earlier one. |
| Walker.GatherListable | app.py:60 | No gathered file has a reserved name. |
| Walker.NoReservedFileListed | app.py:59-61 | No chapter of a successful walk lists a file with a reserved name, whether or not that file supplied the description. |
| Assembly.Document | app.py:28-97 | The document opens with the head, the title and the table-of-contents heading, and ends with the closing tags. |
| Assembly.TitleOnlyAtTop | app.py:28-41 | The head and the title appear nowhere after the top. |
| Assembly.TailHasNoTitle | app.py:64-97 | Nothing after the title is a head or a title. |
| Assembly.TocHasNoFrame | app.py:65-75 | The table-of-contents entries are only chapter items, file links and item closers. |
| Assembly.TocLinksAreLinks | app.py:69-72 | A chapter's file entries in the table of contents are all links. |
| Assembly.FileSectionsKinds | app.py:84-95 | A chapter's file part of the body holds only file headings and highlighted markup. |
| Assembly.BodyHasNoFrame | app.py:78-95 | The body holds only chapter headings, descriptions, file headings and highlighted markup. |
| Assembly.FileAnchor | app.py:86 | The id `file{counter}-{name}` of a file heading. A definition; `Assembly.FileAnchorInjective` and `Assembly.TocHrefTargets` state its properties. |
| Assembly.TocHref | app.py:71-72 | The link target `#file{counter}-{name}` of a table-of-contents entry. A definition; `Assembly.TocHrefTargets` states which anchors it reaches. |
| Assembly.ChapterAnchor | app.py:81 | The id `chapter{counter}` of a chapter heading. A definition; `Assembly.ChapterIdsAt` states its use. |
| Assembly.Highlight | app.py:87-91 | Reading and highlighting one file: nothing when the file cannot be read or the highlighter fails, otherwise the highlighter's markup for the file's name and text. A definition; `Assembly.FileSectionShown` states its use. |
| Assembly.TocLinks | app.py:69-73 | A chapter's links in the table of contents. A definition; `Assembly.TocLinksMembers`, `Assembly.TocLinksOrder` and `Assembly.TocLinksNesting` state its properties. |
| Assembly.TocEntries | app.py:65-75 | The table of contents, chapter after chapter with the counter from its start. A definition; `Assembly.TocEntriesMembers`, `Assembly.TocChapterOrder`, `Assembly.TocLinkOrder` and `Assembly.TocEntriesNesting` state its properties. |
| Assembly.FileSection | app.py:84-95 | One file's part of the body. A definition; `Assembly.FileSectionNames` and `Assembly.FileSectionShown` state its properties. |
| Assembly.FileSections | app.py:84-95 | A chapter's file part of the body. A definition; `Assembly.FileSectionsMembers`, `Assembly.FileSectionsOrder`, `Assembly.FileSectionsShown` and `Assembly.FileSectionsNesting` state its properties. |
| Assembly.Sections | app.py:78-95 | The body, chapter after chapter with the counter from its start. A definition; `Assembly.SectionsMembers`, `Assembly.SectionsChapterOrder`, `Assembly.SectionsFileOrder`, `Assembly.SectionsShown` and `Assembly.SectionsNesting` state its properties. |
| Assembly.FileSectionPaired | app.py:87-95 | A file's part of the body is either nothing or a heading directly followed by markup. Which markup is stated by `Assembly.FileSectionShown`. |
| Assembly.FileSectionsPaired | app.py:84-95 | In a chapter's file part, every file heading is directly followed by some highlighted markup and all markup directly follows a file heading. |
| Assembly.ChapterOpeningPaired | app.py:81-83 | A chapter heading and its description hold no file heading and no markup. |
| Assembly.SectionsPaired | app.py:78-95 | In the body, every file heading is directly followed by some highlighted markup and all markup directly follows a file heading. |
| Assembly.DocumentPaired | app.py:64-97 | In the whole document, every file heading is directly followed by some highlighted markup, and no markup appears without a file heading just before it. `Assembly.DocumentShown` says which markup follows which heading. |
| Assembly.FileSectionShown | app.py:87-93 | A file's part of the body shows that file's name with the markup the highlighter gives that very file, or nothing when it cannot be read or highlighted. |
| Assembly.FileSectionsShown | app.py:84-95 | A chapter's file part shows each surviving file's name directly followed by that file's own markup, in order. |
| Assembly.SectionsShown | app.py:78-95 | The body shows each surviving file's name directly followed by that file's own markup, chapter after chapter. |
| Assembly.DocumentShown | app.py:64-97 | In the whole document, the (heading, following markup) pairs are exactly the surviving files with their own markup, chapter after chapter. |
| Assembly.DigitsDashSplit | app.py:71 | A digit string followed by `-` can be read back from the front of the text it starts. |
| Assembly.FileAnchorInjective | app.py:86 | Distinct (counter, name) pairs never give the same `file{counter}-{name}` anchor. |
| Assembly.TocHrefTargets | app.py:71-72 | A link built with counter `p` targets the anchor built with counter `q` exactly when the counters and the names agree. A link never targets the anchor the body gives its own file. |
| Assembly.TocLinksMembers | app.py:69-72 | A link is in a chapter's table-of-contents list exactly when some file of that chapter has that name and that link. |
| Assembly.TocEntriesMembers | app.py:66-75 | A link is in the table of contents exactly when some chapter lists a file of that name with the link built from the chapter's position. |
| Assembly.FileSectionsMembers | app.py:84-93 | A file heading is in a chapter's file part exactly when a file of that name survives reading and highlighting. |
| Assembly.SectionsMembers | app.py:78-95 | A file heading is in the body exactly when some chapter has a surviving file of that name with that anchor. |
| Assembly.DocumentLinks | app.py:66-75 | The table of contents links every file of every chapter, skipped or not, with the chapter's 0-based position; no other link appears. |
| Assembly.DocumentFileHeadings | app.py:78-95 | The body heads exactly the surviving files, with the chapter's 1-based position. |
| Assembly.BodyHeadingIff | app.py:84-93 | The heading for chapter `p` and name `n` is present exactly when a file of that name in that chapter survives. |
| Assembly.SkippedFileStillListed | app.py:66-95 | A file that cannot be read or highlighted, with no surviving same-named file in its chapter, is linked from the table of contents but has no heading in the body. |
| Assembly.TocLinkResolution | app.py:66-92 | Every file is linked. Its link reaches a file heading exactly when the previous chapter has a surviving file of the same name, so links of the first chapter never resolve. |
| Assembly.ChapterIdsAt | app.py:78-81 | The chapter at position `p` of the body, counted from `counter`, has anchor `chapter{counter+p}`. |
| Assembly.SurvivingCount | app.py:84-95 | A chapter's body never shows more files than its table-of-contents entry lists. It shows as many only when none is skipped. |
| Assembly.TocLinksOrder | app.py:69-72 | A chapter's table-of-contents list names its files in order. |
| Assembly.TocChapterOrder | app.py:66-68 | The table of contents names the chapters in the order given, one item each. |
| Assembly.TocLinkOrder | app.py:66-75 | The table of contents names every file of every chapter, chapter after chapter, in listing order. |
| Assembly.FileSectionsOrder | app.py:84-95 | A chapter's file part names its surviving files in order. |
| Assembly.FileSectionNames | app.py:84-93 | One file contributes its name as a heading exactly when it can be read and highlighted. |
| Assembly.SectionsChapterOrder | app.py:78-81 | The body heads the chapters in order, numbered consecutively from its starting counter. |
| Assembly.SectionsFileOrder | app.py:78-95 | The body heads the surviving files chapter after chapter, in order. |
| Assembly.SectionsDescriptionOrder | app.py:82-83 | The body shows each described chapter's description once, in chapter order. |
| Assembly.DescriptionPart | app.py:82-83 | The description paragraph of a chapter, or nothing when it has none. A definition; `Assembly.DescriptionPartText` states when it appears and what it holds. |
| Assembly.DescriptionPartText | app.py:82-83 | A chapter shows its description exactly when it has one, and then only that text. |
| Assembly.DocumentOrder | app.py:64-97 | Both halves present the chapters in the same order; the body numbers them from 1. The table of contents lists every file; the body heads the surviving ones in the same relative order; descriptions follow chapter order. |
| Assembly.TocLinksNesting | app.py:69-73 | A chapter's part of the table of contents holds one link per file and nothing else, in file order. Each link targets `#file{counter}-{name}` for the chapter's own counter. |
| Assembly.TocEntriesNesting | app.py:65-75 | Read as chapter items, links and closers, the table of contents is: for each chapter in order, its item, then a link for each of its own files, then its closer. The links of the chapter at position `p` target anchors under counter `counter + p`. |
| Assembly.FileSectionsNesting | app.py:84-95 | A chapter's file part holds one heading per surviving file, in file order, each with id `file{counter}-{name}`, and no chapter heading or description. |
| Assembly.SectionsNesting | app.py:78-95 | Read as chapter headings, descriptions and file headings, the body is: for each chapter in order, its heading, then its description if it has one, then a heading for each of its own surviving files. The file headings of the chapter at position `p` carry ids under counter `counter + p`. |
| Assembly.DocumentNesting | app.py:64-97 | Both nestings hold for the whole document, the table of contents counting from 0 and the body from 1. The prelude, title, list frame and closer add no such elements. |
| Assembly.DocumentTocChapters | app.py:66-68 | The document's table-of-contents chapter items are the chapter names in order. |
| Assembly.DocumentBodyChapters | app.py:78-81 | The document's chapter headings are the chapters in order, with anchors `chapter1`, `chapter2`, and so on. |
| Assembly.DocumentTocLinks | app.py:69-72 | The document's links name every file, chapter after chapter. |
| Assembly.DocumentFileHeadingOrder | app.py:84-93 | The document's file headings name the surviving files, chapter after chapter. |
| Assembly.DocumentDescriptionOrder | app.py:82-83 | The document's descriptions are those of the described chapters, in chapter order. |
| Assembly.DocumentSelect | app.py:64-97 | Extracting from the document is extracting from the table of contents, then from the body. |
| Notebook.OrderedChapters | app.py:67 | `sorted(folder_map.items())` arranges the chapters in ascending name order, without adding or losing any. |
| Notebook.GenerateNotebook | app.py:25-97 | Generation fails exactly when some chosen description file cannot be read. Otherwise the document opens with the style rules and the title as given. |
| Notebook.UploadNotebook | app.py:137-142 | Through the upload path, generation fails exactly when some chosen description file cannot be read. The title heading is never empty and never has surrounding whitespace. An empty, all-whitespace or missing field gives `My Notebook`; any other field gives the field stripped. |
| Notebook.HasChapterPermutation | app.py:67 | Rearranging the chapters keeps the set of chapter names. |
| Notebook.ChapterNamesHas | app.py:67-68 | A name is among the listed chapter names exactly when some chapter has it. |
| Notebook.OrderedGathered | app.py:67-69 | After sorting, each chapter still holds the gathered listings of its directories. |
| Notebook.ListedNamesOfChapters | app.py:66-72 | The table-of-contents file names equal the reference listing computed from the walked directories. |
| Notebook.ShownNamesOfChapters | app.py:84-93 | The body's file names equal the reference listing of surviving files. |
| Notebook.ShownPairsOfChapters | app.py:84-93 | The body's (name, markup) pairs equal the reference list of surviving files with their markup, computed from the walked directories. |
| Notebook.NoteTextsOfChapters | app.py:82-83 | The body's descriptions equal the reference descriptions computed from the walked directories. |
| Notebook.ChapterIdsNumbered | app.py:78-81 | The body chapter at position `p` has anchor `chapter{p+1}` and the `p`-th chapter name. |
| Notebook.NotebookChapterOrder | app.py:67-68 | The table of contents names each chapter once, in strictly ascending code-point order. |
| Notebook.NotebookChapterKeys | app.py:47-68 | The chapters the table of contents names are exactly the chapter keys of the walked directories, `Root` for the top one. |
| Notebook.NotebookNumbering | app.py:78-81 | The body heads the same chapters in the same order, the one at position `p` with anchor `chapter{p+1}`. |
| Notebook.NotebookFiles | app.py:59-93 | Across all chapters, the table of contents lists every file gathered from the directories. The body heads only the readable, highlightable ones, in the same order. `Notebook.NotebookNesting` says which chapter each file sits under. |
| Notebook.NotebookMarkup | app.py:84-93 | In a generated notebook every file heading is directly followed by markup, and each heading's markup is the highlighter's output for that file of the walked directories, chapter after chapter. |
| Notebook.ListedNestingOfChapters | app.py:66-73 | The table-of-contents nesting of the ordered chapters equals the reference nesting. The reference puts under each chapter the files gathered for it from the walked directories, linked under that chapter's counter. |
| Notebook.ShownNestingOfChapters | app.py:78-93 | The body nesting of the ordered chapters equals the reference nesting. The reference puts under each chapter its last chosen description and its surviving gathered files, with ids under that chapter's counter. |
| Notebook.NotebookNesting | app.py:47-95 | For a notebook that is generated, the table-of-contents item of the chapter at position `p` holds links to exactly the files gathered under it, each targeting `#file{p}-{name}`, before the next item opens. Each chapter heading is followed by its own description, then by the headings of exactly its own readable, highlightable files, each with id `file{p+1}-{name}`, before the next chapter heading. |
| Notebook.NotebookDescriptions | app.py:52-83 | The body shows, in chapter order, the stripped text of each chapter's last chosen description file. |
| Walkthrough.WalkExample | app.py:47-62 | The walk of the example gives chapters `Root` (`a.py`, `b.md`) and `pkg` (`c.go`, `d.bin`), and one description for `pkg`. |
| Walkthrough.DocumentExample | app.py:28-97 | The whole example document, element by element. |
| Walkthrough.NotebookExample | app.py:25-97 | End to end, the example archive yields that document. No link names a heading of its own file. |

## Left out

- Flask routing, the `request.files` checks, `flash` and redirects (`app.py:109-124`, `151-153`): web plumbing with no logic beyond the filter and the title, which are modelled.
- `secure_filename`, saving the upload, extracting the archive, temporary directories and their removal: I/O outside the core.
- The download name built from the title (`app.py:145`): it goes through `secure_filename`, which is not part of this model.
- The order in which `os.walk` visits directories, and the order of names within a directory: the walk is an input (`Walker.DirRecord` sequence). Every property holds for any visiting order.
- `os.path.exists` on a reserved name that is a directory or a broken link: the model treats "exists" as "is a listed file of the directory".
- Decoding with `errors='ignore'`: file contents are given as already-decoded text, or as none when opening or reading raises.
- Pygments lexer guessing and highlighting: an opaque function that may fail (`Assembly.Highlighter`); the style definitions are an opaque string.
- The literal CSS and HTML text of each element, the final `"\n".join`, writing `all_codes.html` and the WeasyPrint PDF conversion: rendering, not logic. Each element stands for one fixed piece of text: `Prelude` for app.py:28-39, `Title` for app.py:40, `TocOpen` for app.py:65, `TocChapter` for app.py:68, `TocLink` for app.py:72, `TocChapterClose` for app.py:73, `TocClose` for app.py:75, `ChapterHeading` for app.py:81, `Description` for app.py:83, `FileHeading` for app.py:92, `Highlighted` for app.py:93 and `Close` for app.py:97. The pieces are joined with newlines in emission order. Names, titles, descriptions and markup are raw strings, and they may hold newlines or tags. So the text is a function of the element sequence, but the element sequence cannot always be read back from the text.
- HTML escaping: the code inserts names, titles and descriptions into the HTML without escaping, and so does the model (as raw strings in the elements).
- The `all_files` list (`app.py:46`, `62`): it is built but never read.
- The `print` diagnostic for a skipped file (`app.py:95`): logging.
- Text.Lower: lower-cases ASCII letters only. Python's `str.lower()` also maps other characters, but no non-ASCII character lower-cases to `z`, `i` or `p` alone, so the `zip` verdict of `Upload.AllowedFile` is unchanged.
- Sorting.Sort: sorts by one string key; `sorted()` on the `(name, files)` pairs of `folder_map` would compare the file lists only on equal names, which the distinct chapter names exclude (`Sorting.SortDistinctIsStrict`).

=== FILE: assembly.dfy ===
/**
 * Assembly of the notebook document: a title, a table of contents listing
 * every chapter and file, then one section per chapter with its heading, its
 * description and, for every file that could be read and highlighted, a file
 * heading followed by the highlighted markup.
 *
 * Two behaviours of the generator are kept as they are. The table of
 * contents numbers chapters from 0 and the body from 1, so the link for a
 * file names the anchor the body gives the same-named file one chapter
 * earlier. And the table of contents is built before any file is read, so
 * it also lists the files the body later skips.
 */
module Assembly {
  import opened Wrappers
  import opened Text
  import opened Walker

  /** The pieces of the generated HTML document, in emission order. */
  datatype Element =
    | Prelude(styleDefs: string)          // head with the highlighter's style rules and the fixed stylesheet; opens the body
    | Title(text: string)                 // the <h1> heading, written as given
    | TocOpen                             // the "Table of Contents" heading; opens the outer list
    | TocChapter(name: string)            // a chapter entry; opens its file list
    | TocLink(href: string, name: string) // a file entry linking to `href`
    | TocChapterClose                     // closes a chapter entry
    | TocClose                            // closes the outer list
    | ChapterHeading(id: string, name: string)
    | Description(text: string)
    | FileHeading(id: string, name: string)
    | Highlighted(markup: string)
    | Close                               // closes body and document

  /**
   * The lexer guess and highlighting of a file: the markup for (name, code),
   * or None when either raises.
   */
  type Highlighter = (string, string) -> Option<string>

  /** The anchor "file{counter}-{name}" both the links and the file headings are built from. */
  function FileAnchor(counter: nat, name: string): string {
    "file" + NatToString(counter) + "-" + name
  }

  /** The id "chapter{counter}" of a chapter heading. */
  function ChapterAnchor(counter: nat): string {
    "chapter" + NatToString(counter)
  }

  /** The link target of a table-of-contents entry. */
  function TocHref(counter: nat, name: string): string {
    "#" + FileAnchor(counter, name)
  }

  /** Reading, lexer guessing and highlighting of one file; None when any of them raises. */
  function Highlight(f: FileRef, hl: Highlighter): Option<string> {
    match f.text
    case None => None
    case Some(code) => hl(f.name, code)
  }

  // Table of contents.

  function TocLinks(files: seq<FileRef>, counter: nat): seq<Element> {
    if files == [] then
      []
    else
      [TocLink(TocHref(counter, files[0].name), files[0].name)] + TocLinks(files[1..], counter)
  }

  /** The entries of `chs`, the first numbered `counter` and each next one more. */
  function TocEntries(chs: seq<Chapter>, counter: nat): seq<Element> {
    if chs == [] then
      []
    else
      [TocChapter(chs[0].name)] + TocLinks(chs[0].files, counter) + [TocChapterClose]
      + TocEntries(chs[1..], counter + 1)
  }

  // Body.

  /** A file's heading and markup, or nothing when the file is skipped. */
  function FileSection(f: FileRef, counter: nat, hl: Highlighter): seq<Element> {
    match Highlight(f, hl)
    case None => []
    case Some(markup) => [FileHeading(FileAnchor(counter, f.name), f.name), Highlighted(markup)]
  }

  function FileSections(files: seq<FileRef>, counter: nat, hl: Highlighter): seq<Element> {
    if files == [] then [] else FileSection(files[0], counter, hl) + FileSections(files[1..], counter, hl)
  }

  function DescriptionPart(name: string, descs: map<string, string>): seq<Element> {
    if name in descs then [Description(descs[name])] else []
  }

  /** The chapter sections of `chs`, the first numbered `counter` and each next one more. */
  function Sections(chs: seq<Chapter>, counter: nat, descs: map<string, string>, hl: Highlighter): seq<Element> {
    if chs == [] then
      []
    else
      [ChapterHeading(ChapterAnchor(counter), chs[0].name)] + DescriptionPart(chs[0].name, descs)
      + FileSections(chs[0].files, counter, hl) + Sections(chs[1..], counter + 1, descs, hl)
  }

  /**
   * The whole document for chapters `chs`, already in output order: the
   * table of contents counts from 0, the body from 1.
   */
  function Document(title: string, styleDefs: string, chs: seq<Chapter>, descs: map<string, string>,
                    hl: Highlighter): (doc: seq<Element>)
    ensures |doc| >= 5
    ensures doc[0] == Prelude(styleDefs) && doc[1] == Title(title) && doc[2] == TocOpen
    ensures doc[|doc| - 1] == Close
  {
    [Prelude(styleDefs), Title(title), TocOpen] + TocEntries(chs, 0) + [TocClose]
    + Sections(chs, 1, descs, hl) + [Close]
  }

  /** The title heading and the head appear once, at the top. */
  lemma TitleOnlyAtTop(title: string, styleDefs: string, chs: seq<Chapter>, descs: map<string, string>, hl: Highlighter)
    ensures var doc := Document(title, styleDefs, chs, descs, hl);
      forall i :: 2 <= i < |doc| ==> !doc[i].Prelude? && !doc[i].Title?
  {
    var doc := Document(title, styleDefs, chs, descs, hl);
    var tail := [TocOpen] + TocEntries(chs, 0) + [TocClose] + (Sections(chs, 1, descs, hl) + [Close]);
    DocumentTail(title, styleDefs, chs, descs, hl);
    TailHasNoTitle(chs, descs, hl);
    forall i | 2 <= i < |doc| ensures !doc[i].Prelude? && !doc[i].Title? {
      assert doc[i] == tail[i - 2];
      assert tail[i - 2] in tail;
    }
  }

  lemma DocumentTail(title: string, styleDefs: string, chs: seq<Chapter>, descs: map<string, string>, hl: Highlighter)
    ensures Document(title, styleDefs, chs, descs, hl)[2..]
      == [TocOpen] + TocEntries(chs, 0) + [TocClose] + (Sections(chs, 1, descs, hl) + [Close])
  {
    DocumentShape(title, styleDefs, chs, descs, hl);
  }

  lemma TailHasNoTitle(chs: seq<Chapter>, descs: map<string, string>, hl: Highlighter)
    ensures forall e :: e in [TocOpen] + TocEntries(chs, 0) + [TocClose] + (Sections(chs, 1, descs, hl) + [Close]) ==>
                 !e.Prelude? && !e.Title?
  {
    var toc := TocEntries(chs, 0);
    var body := Sections(chs, 1, descs, hl);
    TocHasNoFrame(chs, 0);
    BodyHasNoFrame(chs, 1, descs, hl);
    forall e | e in [TocOpen] + toc + [TocClose] + (body + [Close]) ensures !e.Prelude? && !e.Title? {
      if e in [TocOpen] + toc + [TocClose] {
        assert e == TocOpen || e in toc || e == TocClose;
      } else {
        assert e in body || e == Close;
      }
    }
  }

  // Element kinds of the two halves.

  predicate TocElement(e: Element) {
    e.TocChapter? || e.TocLink? || e.TocChapterClose?
  }

  predicate BodyElement(e: Element) {
    e.ChapterHeading? || e.Description? || e.FileHeading? || e.Highlighted?
  }

  lemma {:induction false} TocHasNoFrame(chs: seq<Chapter>, counter: nat)
    ensures forall e :: e in TocEntries(chs, counter) ==> TocElement(e)
    decreases |chs|
  {
    if chs != [] {
      TocLinksAreLinks(chs[0].files, counter);
      TocHasNoFrame(chs[1..], counter + 1);
    }
  }

  lemma {:induction false} TocLinksAreLinks(files: seq<FileRef>, counter: nat)
    ensures forall e :: e in TocLinks(files, counter) ==> e.TocLink?
    decreases |files|
  {
    if files != [] {
      TocLinksAreLinks(files[1..], counter);
    }
  }

  lemma {:induction false} FileSectionsKinds(files: seq<FileRef>, counter: nat, hl: Highlighter)
    ensures forall e :: e in FileSections(files, counter, hl) ==> e.FileHeading? || e.Highlighted?
    decreases |files|
  {
    if files != [] {
      FileSectionsKinds(files[1..], counter, hl);
    }
  }

  lemma {:induction false} BodyHasNoFrame(chs: seq<Chapter>, counter: nat, descs: map<string, string>, hl: Highlighter)
    ensures forall e :: e in Sections(chs, counter, descs, hl) ==> BodyElement(e)
    decreases |chs|
  {
    if chs != [] {
      FileSectionsKinds(chs[0].files, counter, hl);
      BodyHasNoFrame(chs[1..], counter + 1, descs, hl);
    }
  }

  // Each file heading is immediately followed by its markup.

  /**
   * Every file heading is immediately followed by highlighted markup, and
   * every piece of markup immediately follows a file heading.
   */
  predicate MarkupFollowsHeadings(s: seq<Element>) {
    (forall i :: 0 <= i < |s| && s[i].FileHeading? ==> i + 1 < |s| && s[i + 1].Highlighted?)
    && (forall i :: 0 <= i < |s| && s[i].Highlighted? ==> 0 < i && s[i - 1].FileHeading?)
  }

  lemma PairedWithout(s: seq<Element>)
    requires forall e :: e in s ==> !e.FileHeading? && !e.Highlighted?
    ensures MarkupFollowsHeadings(s)
  {
    forall i | 0 <= i < |s| ensures !s[i].FileHeading? && !s[i].Highlighted? {
      assert s[i] in s;
    }
  }

  lemma PairedAppend(a: seq<Element>, b: seq<Element>)
    requires MarkupFollowsHeadings(a) && MarkupFollowsHeadings(b)
    ensures MarkupFollowsHeadings(a + b)
  {
    var s := a + b;
    forall i | 0 <= i < |s| && s[i].FileHeading? ensures i + 1 < |s| && s[i + 1].Highlighted? {
      if i < |a| {
        assert s[i] == a[i];
        assert i + 1 < |a|;
        assert s[i + 1] == a[i + 1];
      } else {
        assert s[i] == b[i - |a|];
        assert s[i + 1] == b[i + 1 - |a|];
      }
    }
    forall i | 0 <= i < |s| && s[i].Highlighted? ensures 0 < i && s[i - 1].FileHeading? {
      if i < |a| {
        assert s[i] == a[i];
        assert s[i - 1] == a[i - 1];
      } else {
        assert s[i] == b[i - |a|];
        assert 0 < i - |a|;
        assert s[i - 1] == b[i - 1 - |a|];
      }
    }
  }

  lemma FileSectionPaired(f: FileRef, counter: nat, hl: Highlighter)
    ensures MarkupFollowsHeadings(FileSection(f, counter, hl))
  {
  }

  lemma {:induction false} FileSectionsPaired(files: seq<FileRef>, counter: nat, hl: Highlighter)
    ensures MarkupFollowsHeadings(FileSections(files, counter, hl))
    decreases |files|
  {
    if files != [] {
      FileSectionPaired(files[0], counter, hl);
      FileSectionsPaired(files[1..], counter, hl);
      PairedAppend(FileSection(files[0], counter, hl), FileSections(files[1..], counter, hl));
    }
  }

  /** The chapter heading and description that open a chapter section. */
  lemma ChapterOpeningPaired(name: string, counter: nat, descs: map<string, string>)
    ensures MarkupFollowsHeadings([ChapterHeading(ChapterAnchor(counter), name)] + DescriptionPart(name, descs))
  {
    PairedWithout([ChapterHeading(ChapterAnchor(counter), name)] + DescriptionPart(name, descs));
  }

  lemma {:induction false} SectionsPaired(chs: seq<Chapter>, counter: nat, descs: map<string, string>, hl: Highlighter)
    ensures MarkupFollowsHeadings(Sections(chs, counter, descs, hl))
    decreases |chs|
  {
    if chs != [] {
      var opening := [ChapterHeading(ChapterAnchor(counter), chs[0].name)] + DescriptionPart(chs[0].name, descs);
      var files := FileSections(chs[0].files, counter, hl);
      var rest := Sections(chs[1..], counter + 1, descs, hl);
      ChapterOpeningPaired(chs[0].name, counter, descs);
      FileSectionsPaired(chs[0].files, counter, hl);
      SectionsPaired(chs[1..], counter + 1, descs, hl);
      PairedAppend(opening, files);
      PairedAppend(opening + files, rest);
      assert Sections(chs, counter, descs, hl) == opening + files + rest;
    }
  }

  /** In the whole document, file headings and highlighted markup come in adjacent pairs. */
  lemma DocumentPaired(title: string, styleDefs: string, chs: seq<Chapter>, descs: map<string, string>, hl: Highlighter)
    ensures MarkupFollowsHeadings(Document(title, styleDefs, chs, descs, hl))
  {
    var front := [Prelude(styleDefs), Title(title), TocOpen] + TocEntries(chs, 0) + [TocClose];
    var body := Sections(chs, 1, descs, hl);
    TocHasNoFrame(chs, 0);
    PairedWithout(front);
    PairedWithout([Close]);
    SectionsPaired(chs, 1, descs, hl);
    PairedAppend(body, [Close]);
    PairedAppend(front, body + [Close]);
    DocumentShape(title, styleDefs, chs, descs, hl);
  }

  // What the body shows of each file: its heading's name and the markup right after it.

  /** The (name, markup) of every file heading directly followed by highlighted markup, in document order. */
  function ShownFiles(s: seq<Element>): seq<(string, string)>
    decreases |s|
  {
    if |s| < 2 then
      []
    else
      (if s[0].FileHeading? && s[1].Highlighted? then [(s[0].name, s[1].markup)] else []) + ShownFiles(s[1..])
  }

  /** The name and the markup of `f` when it survives reading and highlighting. */
  function ShownOf(f: FileRef, hl: Highlighter): seq<(string, string)> {
    match Highlight(f, hl)
    case None => []
    case Some(markup) => [(f.name, markup)]
  }

  /** The name and markup of every surviving file of `files`, in order. */
  function SurvivingShown(files: seq<FileRef>, hl: Highlighter): seq<(string, string)> {
    if files == [] then [] else ShownOf(files[0], hl) + SurvivingShown(files[1..], hl)
  }

  function AllSurvivingShown(chs: seq<Chapter>, hl: Highlighter): seq<(string, string)> {
    if chs == [] then [] else SurvivingShown(chs[0].files, hl) + AllSurvivingShown(chs[1..], hl)
  }

  /** No pair straddles the seam when the second part does not open with markup. */
  lemma {:induction false} ShownFilesAppend(a: seq<Element>, b: seq<Element>)
    requires b == [] || !b[0].Highlighted?
    ensures ShownFiles(a + b) == ShownFiles(a) + ShownFiles(b)
    decreases |a|
  {
    if a == [] {
      assert a + b == b;
    } else if |a| == 1 {
      assert (a + b)[1..] == b;
    } else {
      assert (a + b)[1..] == a[1..] + b;
      ShownFilesAppend(a[1..], b);
    }
  }

  lemma {:induction false} ShownFilesNothing(s: seq<Element>)
    requires forall e :: e in s ==> !e.FileHeading?
    ensures ShownFiles(s) == []
    decreases |s|
  {
    if |s| >= 2 {
      assert s[0] in s;
      assert forall e :: e in s[1..] ==> e in s;
      ShownFilesNothing(s[1..]);
    }
  }

  lemma FileSectionShown(f: FileRef, counter: nat, hl: Highlighter)
    ensures ShownFiles(FileSection(f, counter, hl)) == ShownOf(f, hl)
  {
    match Highlight(f, hl)
    case None =>
    case Some(markup) =>
      var s := FileSection(f, counter, hl);
      assert |s[1..]| == 1;
  }

  /** A chapter's file part shows each surviving file's name with that file's own markup, in order. */
  lemma {:induction false} FileSectionsShown(files: seq<FileRef>, counter: nat, hl: Highlighter)
    ensures ShownFiles(FileSections(files, counter, hl)) == SurvivingShown(files, hl)
    decreases |files|
  {
    if files != [] {
      var first := FileSection(files[0], counter, hl);
      var rest := FileSections(files[1..], counter, hl);
      FileSectionsStart(files[1..], counter, hl);
      ShownFilesAppend(first, rest);
      FileSectionShown(files[0], counter, hl);
      FileSectionsShown(files[1..], counter, hl);
    }
  }

  /** What the body shows of its first chapter and of the rest: the chapter's opening shows nothing. */
  lemma SectionsShownStep(chs: seq<Chapter>, counter: nat, descs: map<string, string>, hl: Highlighter)
    requires chs != []
    ensures ShownFiles(Sections(chs, counter, descs, hl))
      == ShownFiles(FileSections(chs[0].files, counter, hl)) + ShownFiles(Sections(chs[1..], counter + 1, descs, hl))
  {
    var opening := [ChapterHeading(ChapterAnchor(counter), chs[0].name)] + DescriptionPart(chs[0].name, descs);
    var files := FileSections(chs[0].files, counter, hl);
    var rest := Sections(chs[1..], counter + 1, descs, hl);
    assert Sections(chs, counter, descs, hl) == opening + files + rest;
    FileSectionsStart(chs[0].files, counter, hl);
    SectionsStart(chs[1..], counter + 1, descs, hl);
    ShownFilesNothing(opening);
    ShownFilesThree(opening, files, rest);
  }

  lemma ShownFilesThree(a: seq<Element>, b: seq<Element>, c: seq<Element>)
    requires ShownFiles(a) == []
    requires b == [] || !b[0].Highlighted?
    requires c == [] || !c[0].Highlighted?
    ensures ShownFiles(a + b + c) == ShownFiles(b) + ShownFiles(c)
  {
    ShownFilesAppend(a, b);
    ShownFilesAppend(a + b, c);
  }

  lemma FileSectionsStart(files: seq<FileRef>, counter: nat, hl: Highlighter)
    ensures FileSections(files, counter, hl) == [] || FileSections(files, counter, hl)[0].FileHeading?
  {
    if files != [] && Highlight(files[0], hl).None? {
      FileSectionsStart(files[1..], counter, hl);
    }
  }

  lemma SectionsStart(chs: seq<Chapter>, counter: nat, descs: map<string, string>, hl: Highlighter)
    ensures Sections(chs, counter, descs, hl) == [] || Sections(chs, counter, descs, hl)[0].ChapterHeading?
  {
  }

  /** The body shows each surviving file's name with that file's own markup, chapter after chapter. */
  lemma {:induction false} SectionsShown(chs: seq<Chapter>, counter: nat, descs: map<string, string>, hl: Highlighter)
    ensures ShownFiles(Sections(chs, counter, descs, hl)) == AllSurvivingShown(chs, hl)
    decreases |chs|
  {
    if chs != [] {
      calc {
        ShownFiles(Sections(chs, counter, descs, hl));
        { SectionsShownStep(chs, counter, descs, hl); }
        ShownFiles(FileSections(chs[0].files, counter, hl)) + ShownFiles(Sections(chs[1..], counter + 1, descs, hl));
        { FileSectionsShown(chs[0].files, counter, hl);
          SectionsShown(chs[1..], counter + 1, descs, hl); }
        SurvivingShown(chs[0].files, hl) + AllSurvivingShown(chs[1..], hl);
      }
    }
  }

  /**
   * The document shows, after each file heading, the markup the highlighter
   * produced for that very file: the (name, markup) pairs are those of the
   * surviving files, chapter after chapter.
   */
  lemma DocumentShown(title: string, styleDefs: string, chs: seq<Chapter>, descs: map<string, string>, hl: Highlighter)
    ensures ShownFiles(Document(title, styleDefs, chs, descs, hl)) == AllSurvivingShown(chs, hl)
  {
    var front := [Prelude(styleDefs), Title(title), TocOpen] + TocEntries(chs, 0) + [TocClose];
    var body := Sections(chs, 1, descs, hl);
    TocHasNoFrame(chs, 0);
    ShownFilesNothing(front);
    SectionsStart(chs, 1, descs, hl);
    ShownFilesAppend(front, body + [Close]);
    ShownFilesAppend(body, [Close]);
    SectionsShown(chs, 1, descs, hl);
    DocumentShape(title, styleDefs, chs, descs, hl);
  }

  // Anchors.

  /** A digit string followed by '-' is recovered from the front of the text it starts. */
  lemma DigitsDashSplit(d1: string, x: string, d2: string, y: string)
    requires AllDigits(d1) && AllDigits(d2)
    requires d1 + "-" + x == d2 + "-" + y
    ensures d1 == d2 && x == y
  {
    var s := d1 + "-" + x;
    var t := d2 + "-" + y;
    assert s[|d1|] == '-';
    assert t[|d2|] == '-';
    assert |d1| == |d2| by {
      assert !IsDigit('-');
    }
    assert d1 == s[..|d1|] && d2 == t[..|d2|];
    assert x == s[|d1| + 1..] && y == t[|d2| + 1..];
  }

  /** Different (counter, name) pairs never give the same anchor. */
  lemma FileAnchorInjective(a: nat, n: string, b: nat, m: string)
    requires FileAnchor(a, n) == FileAnchor(b, m)
    ensures a == b && n == m
  {
    NatToStringParses(a);
    NatToStringParses(b);
    var s := FileAnchor(a, n);
    assert s[4..] == NatToString(a) + "-" + n;
    assert s[4..] == NatToString(b) + "-" + m;
    DigitsDashSplit(NatToString(a), n, NatToString(b), m);
    NatToStringInjective(a, b);
  }

  /**
   * The table-of-contents link built with counter `p` targets the body anchor
   * built with counter `q` exactly when `q == p` and the names agree. Since the
   * body counts one ahead of the table of contents, a link never targets the
   * anchor of its own file, but that of the same name one chapter earlier.
   */
  lemma TocHrefTargets(p: nat, n: string, q: nat, m: string)
    ensures TocHref(p, n) == "#" + FileAnchor(q, m) <==> p == q && n == m
    ensures TocHref(p, n) != "#" + FileAnchor(p + 1, n)
  {
    if TocHref(p, n) == "#" + FileAnchor(q, m) {
      assert TocHref(p, n)[1..] == FileAnchor(p, n);
      assert ("#" + FileAnchor(q, m))[1..] == FileAnchor(q, m);
      FileAnchorInjective(p, n, q, m);
    }
    if TocHref(p, n) == "#" + FileAnchor(p + 1, n) {
      assert TocHref(p, n)[1..] == FileAnchor(p, n);
      assert ("#" + FileAnchor(p + 1, n))[1..] == FileAnchor(p + 1, n);
      FileAnchorInjective(p, n, p + 1, n);
    }
  }

  // Which links and file headings the document holds.

  /** Chapter `p` (counted from `counter`) lists a file named `n` whose link is `h`. */
  ghost predicate LinkFor(chs: seq<Chapter>, counter: nat, h: string, n: string) {
    exists p, j :: 0 <= p < |chs| && 0 <= j < |chs[p].files| && n == chs[p].files[j].name
      && h == TocHref(counter + p, n)
  }

  /** Chapter `p` (counted from `counter`) has a file named `n` that survives, with anchor `id`. */
  ghost predicate HeadingFor(chs: seq<Chapter>, counter: nat, hl: Highlighter, id: string, n: string) {
    exists p, j :: 0 <= p < |chs| && 0 <= j < |chs[p].files| && n == chs[p].files[j].name
      && Highlight(chs[p].files[j], hl).Some? && id == FileAnchor(counter + p, n)
  }

  lemma {:induction false} TocLinksMembers(files: seq<FileRef>, counter: nat, h: string, n: string)
    ensures TocLink(h, n) in TocLinks(files, counter) <==>
      exists j :: 0 <= j < |files| && n == files[j].name && h == TocHref(counter, n)
    decreases |files|
  {
    if files != [] {
      TocLinksMembers(files[1..], counter, h, n);
      if exists j :: 0 <= j < |files| && n == files[j].name && h == TocHref(counter, n) {
        var j :| 0 <= j < |files| && n == files[j].name && h == TocHref(counter, n);
        if j > 0 {
          assert files[1..][j - 1] == files[j];
        }
      }
      if TocLink(h, n) in TocLinks(files[1..], counter) {
        var j :| 0 <= j < |files[1..]| && n == files[1..][j].name && h == TocHref(counter, n);
        assert files[j + 1] == files[1..][j];
      }
    }
  }

  lemma {:induction false} TocEntriesMembers(chs: seq<Chapter>, counter: nat, h: string, n: string)
    ensures TocLink(h, n) in TocEntries(chs, counter) <==> LinkFor(chs, counter, h, n)
    decreases |chs|
  {
    if chs != [] {
      var rest := chs[1..];
      TocEntriesMembers(rest, counter + 1, h, n);
      TocLinksMembers(chs[0].files, counter, h, n);
      if LinkFor(chs, counter, h, n) {
        var p, j :| 0 <= p < |chs| && 0 <= j < |chs[p].files| && n == chs[p].files[j].name
          && h == TocHref(counter + p, n);
        if p > 0 {
          assert rest[p - 1] == chs[p];
          assert LinkFor(rest, counter + 1, h, n);
        }
      }
      if LinkFor(rest, counter + 1, h, n) {
        var p, j :| 0 <= p < |rest| && 0 <= j < |rest[p].files| && n == rest[p].files[j].name
          && h == TocHref(counter + 1 + p, n);
        assert chs[p + 1] == rest[p];
        assert LinkFor(chs, counter, h, n);
      }
    }
  }

  lemma {:induction false} FileSectionsMembers(files: seq<FileRef>, counter: nat, hl: Highlighter, id: string, n: string)
    ensures FileHeading(id, n) in FileSections(files, counter, hl) <==>
      exists j :: 0 <= j < |files| && n == files[j].name && Highlight(files[j], hl).Some?
        && id == FileAnchor(counter, n)
    decreases |files|
  {
    if files != [] {
      FileSectionsMembers(files[1..], counter, hl, id, n);
      if exists j :: 0 <= j < |files| && n == files[j].name && Highlight(files[j], hl).Some?
          && id == FileAnchor(counter, n) {
        var j :| 0 <= j < |files| && n == files[j].name && Highlight(files[j], hl).Some?
          && id == FileAnchor(counter, n);
        if j > 0 {
          assert files[1..][j - 1] == files[j];
        }
      }
      if FileHeading(id, n) in FileSections(files[1..], counter, hl) {
        var j :| 0 <= j < |files[1..]| && n == files[1..][j].name && Highlight(files[1..][j], hl).Some?
          && id == FileAnchor(counter, n);
        assert files[j + 1] == files[1..][j];
      }
    }
  }

  lemma SectionsSplit(chs: seq<Chapter>, counter: nat, descs: map<string, string>, hl: Highlighter, e: Element)
    requires chs != [] && e.FileHeading?
    ensures e in Sections(chs, counter, descs, hl) <==>
      e in FileSections(chs[0].files, counter, hl) || e in Sections(chs[1..], counter + 1, descs, hl)
  {
    assert e !in DescriptionPart(chs[0].name, descs);
  }

  lemma DocumentParts(title: string, styleDefs: string, chs: seq<Chapter>, descs: map<string, string>,
                      hl: Highlighter, e: Element)
    ensures e in Document(title, styleDefs, chs, descs, hl) <==>
      || e in [Prelude(styleDefs), Title(title), TocOpen, TocClose, Close]
      || e in TocEntries(chs, 0)
      || e in Sections(chs, 1, descs, hl)
  {
    var doc := Document(title, styleDefs, chs, descs, hl);
    assert doc == [Prelude(styleDefs), Title(title), TocOpen] + TocEntries(chs, 0) + [TocClose]
      + Sections(chs, 1, descs, hl) + [Close];
  }

  lemma HeadingForCons(chs: seq<Chapter>, counter: nat, hl: Highlighter, id: string, n: string)
    requires chs != []
    ensures HeadingFor(chs, counter, hl, id, n) <==>
      || (exists j :: 0 <= j < |chs[0].files| && n == chs[0].files[j].name && Highlight(chs[0].files[j], hl).Some?
            && id == FileAnchor(counter, n))
      || HeadingFor(chs[1..], counter + 1, hl, id, n)
  {
    if HeadingFor(chs, counter, hl, id, n) {
      HeadingForSplit(chs, counter, hl, id, n);
    }
    if HeadingFor(chs[1..], counter + 1, hl, id, n) {
      HeadingForLater(chs, counter, hl, id, n);
    }
  }

  lemma HeadingForSplit(chs: seq<Chapter>, counter: nat, hl: Highlighter, id: string, n: string)
    requires chs != [] && HeadingFor(chs, counter, hl, id, n)
    ensures || (exists j :: 0 <= j < |chs[0].files| && n == chs[0].files[j].name && Highlight(chs[0].files[j], hl).Some?
                  && id == FileAnchor(counter, n))
            || HeadingFor(chs[1..], counter + 1, hl, id, n)
  {
    var rest := chs[1..];
    var p, j :| 0 <= p < |chs| && 0 <= j < |chs[p].files| && n == chs[p].files[j].name
      && Highlight(chs[p].files[j], hl).Some? && id == FileAnchor(counter + p, n);
    if p > 0 {
      assert rest[p - 1] == chs[p];
      assert HeadingFor(rest, counter + 1, hl, id, n);
    }
  }

  lemma HeadingForLater(chs: seq<Chapter>, counter: nat, hl: Highlighter, id: string, n: string)
    requires chs != [] && HeadingFor(chs[1..], counter + 1, hl, id, n)
    ensures HeadingFor(chs, counter, hl, id, n)
  {
    var rest := chs[1..];
    var p, j :| 0 <= p < |rest| && 0 <= j < |rest[p].files| && n == rest[p].files[j].name
      && Highlight(rest[p].files[j], hl).Some? && id == FileAnchor(counter + 1 + p, n);
    assert chs[p + 1] == rest[p];
  }

  lemma {:induction false} SectionsMembers(chs: seq<Chapter>, counter: nat, descs: map<string, string>,
                                          hl: Highlighter, id: string, n: string)
    ensures FileHeading(id, n) in Sections(chs, counter, descs, hl) <==> HeadingFor(chs, counter, hl, id, n)
    decreases |chs|
  {
    if chs != [] {
      SectionsSplit(chs, counter, descs, hl, FileHeading(id, n));
      SectionsMembers(chs[1..], counter + 1, descs, hl, id, n);
      FileSectionsMembers(chs[0].files, counter, hl, id, n);
      HeadingForCons(chs, counter, hl, id, n);
    }
  }

  /**
   * The table of contents links every file of every chapter, skipped or not,
   * with the link built from the chapter's 0-based position; no other link
   * appears.
   */
  lemma DocumentLinks(title: string, styleDefs: string, chs: seq<Chapter>, descs: map<string, string>,
                      hl: Highlighter, h: string, n: string)
    ensures TocLink(h, n) in Document(title, styleDefs, chs, descs, hl) <==>
      exists p, j :: 0 <= p < |chs| && 0 <= j < |chs[p].files| && n == chs[p].files[j].name && h == TocHref(p, n)
  {
    DocumentParts(title, styleDefs, chs, descs, hl, TocLink(h, n));
    TocEntriesMembers(chs, 0, h, n);
    BodyHasNoFrame(chs, 1, descs, hl);
  }

  /**
   * The body holds a heading for exactly the files that could be read and
   * highlighted, with the anchor built from the chapter's 1-based position.
   */
  lemma DocumentFileHeadings(title: string, styleDefs: string, chs: seq<Chapter>, descs: map<string, string>,
                             hl: Highlighter, id: string, n: string)
    ensures FileHeading(id, n) in Document(title, styleDefs, chs, descs, hl) <==>
      exists p, j :: 0 <= p < |chs| && 0 <= j < |chs[p].files| && n == chs[p].files[j].name
        && Highlight(chs[p].files[j], hl).Some? && id == FileAnchor(p + 1, n)
  {
    DocumentParts(title, styleDefs, chs, descs, hl, FileHeading(id, n));
    SectionsMembers(chs, 1, descs, hl, id, n);
    TocHasNoFrame(chs, 0);
    if HeadingFor(chs, 1, hl, id, n) {
      var p, j :| 0 <= p < |chs| && 0 <= j < |chs[p].files| && n == chs[p].files[j].name
        && Highlight(chs[p].files[j], hl).Some? && id == FileAnchor(1 + p, n);
      assert id == FileAnchor(p + 1, n);
    }
  }

  /** Some file of `ch` named `n` can be read and highlighted. */
  predicate HasSurvivor(ch: Chapter, n: string, hl: Highlighter) {
    exists k :: 0 <= k < |ch.files| && ch.files[k].name == n && Highlight(ch.files[k], hl).Some?
  }

  /** The file heading built for chapter `p` and name `n` is there exactly when such a file of that chapter survives. */
  lemma BodyHeadingIff(title: string, styleDefs: string, chs: seq<Chapter>, descs: map<string, string>,
                       hl: Highlighter, p: nat, n: string)
    requires p < |chs|
    ensures FileHeading(FileAnchor(p + 1, n), n) in Document(title, styleDefs, chs, descs, hl) <==>
      HasSurvivor(chs[p], n, hl)
  {
    DocumentFileHeadings(title, styleDefs, chs, descs, hl, FileAnchor(p + 1, n), n);
    if FileHeading(FileAnchor(p + 1, n), n) in Document(title, styleDefs, chs, descs, hl) {
      var q, j :| 0 <= q < |chs| && 0 <= j < |chs[q].files| && n == chs[q].files[j].name
        && Highlight(chs[q].files[j], hl).Some? && FileAnchor(p + 1, n) == FileAnchor(q + 1, n);
      FileAnchorInjective(p + 1, n, q + 1, n);
    }
  }

  /**
   * A file that cannot be read or highlighted, with no same-named file of its
   * chapter that can, is still linked from the table of contents but has no
   * heading in the body.
   */
  lemma SkippedFileStillListed(title: string, styleDefs: string, chs: seq<Chapter>, descs: map<string, string>,
                               hl: Highlighter, p: nat, j: nat)
    requires p < |chs| && j < |chs[p].files|
    requires !HasSurvivor(chs[p], chs[p].files[j].name, hl)
    ensures TocLink(TocHref(p, chs[p].files[j].name), chs[p].files[j].name) in Document(title, styleDefs, chs, descs, hl)
    ensures FileHeading(FileAnchor(p + 1, chs[p].files[j].name), chs[p].files[j].name) !in Document(title, styleDefs, chs, descs, hl)
  {
    var n := chs[p].files[j].name;
    DocumentLinks(title, styleDefs, chs, descs, hl, TocHref(p, n), n);
    BodyHeadingIff(title, styleDefs, chs, descs, hl, p, n);
  }

  /**
   * Every file of chapter `p` is linked, and its link leads to a file heading
   * of the body exactly when the chapter before it has a surviving file of
   * the same name: for the first chapter, never.
   */
  lemma TocLinkResolution(title: string, styleDefs: string, chs: seq<Chapter>, descs: map<string, string>,
                          hl: Highlighter, p: nat, j: nat)
    requires p < |chs| && j < |chs[p].files|
    ensures TocLink(TocHref(p, chs[p].files[j].name), chs[p].files[j].name) in Document(title, styleDefs, chs, descs, hl)
    ensures (exists e :: e in Document(title, styleDefs, chs, descs, hl) && e.FileHeading?
               && TocHref(p, chs[p].files[j].name) == "#" + e.id) <==>
      0 < p && HasSurvivor(chs[p - 1], chs[p].files[j].name, hl)
  {
    var doc := Document(title, styleDefs, chs, descs, hl);
    var n := chs[p].files[j].name;
    DocumentLinks(title, styleDefs, chs, descs, hl, TocHref(p, n), n);
    if e :| e in doc && e.FileHeading? && TocHref(p, n) == "#" + e.id {
      DocumentFileHeadings(title, styleDefs, chs, descs, hl, e.id, e.name);
      var q, k :| 0 <= q < |chs| && 0 <= k < |chs[q].files| && e.name == chs[q].files[k].name
        && Highlight(chs[q].files[k], hl).Some? && e.id == FileAnchor(q + 1, e.name);
      TocHrefTargets(p, n, q + 1, e.name);
      assert chs[p - 1].files[k].name == n;
    }
    if 0 < p && HasSurvivor(chs[p - 1], n, hl) {
      BodyHeadingIff(title, styleDefs, chs, descs, hl, p - 1, n);
      var e := FileHeading(FileAnchor(p, n), n);
      assert e in doc && e.FileHeading? && TocHref(p, n) == "#" + e.id;
    }
  }

  // Order of chapters and files.

  /** The values `pick` extracts from the elements of `s`, in document order. */
  function Select<X>(s: seq<Element>, pick: Element -> Option<X>): seq<X> {
    if s == [] then
      []
    else
      (match pick(s[0]) case Some(x) => [x] case None => []) + Select(s[1..], pick)
  }

  lemma {:induction false} SelectAppend<X>(a: seq<Element>, b: seq<Element>, pick: Element -> Option<X>)
    ensures Select(a + b, pick) == Select(a, pick) + Select(b, pick)
    decreases |a|
  {
    if a != [] {
      assert (a + b)[1..] == a[1..] + b;
      SelectAppend(a[1..], b, pick);
    } else {
      assert a + b == b;
    }
  }

  lemma {:induction false} SelectNothing<X>(s: seq<Element>, pick: Element -> Option<X>)
    requires forall e :: e in s ==> pick(e).None?
    ensures Select(s, pick) == []
    decreases |s|
  {
    if s != [] {
      assert s[0] in s;
      SelectNothing(s[1..], pick);
    }
  }

  function TocChapterName(e: Element): Option<string> {
    if e.TocChapter? then Some(e.name) else None
  }

  function BodyChapter(e: Element): Option<(string, string)> {
    if e.ChapterHeading? then Some((e.id, e.name)) else None
  }

  function TocLinkName(e: Element): Option<string> {
    if e.TocLink? then Some(e.name) else None
  }

  function FileHeadingName(e: Element): Option<string> {
    if e.FileHeading? then Some(e.name) else None
  }

  function ChapterNames(chs: seq<Chapter>): (names: seq<string>)
    ensures |names| == |chs| && forall p :: 0 <= p < |chs| ==> names[p] == chs[p].name
  {
    seq(|chs|, p requires 0 <= p < |chs| => chs[p].name)
  }

  /** The (id, name) pairs of the chapter headings of `chs` numbered from `counter`. */
  function ChapterIds(chs: seq<Chapter>, counter: nat): (ids: seq<(string, string)>)
    ensures |ids| == |chs|
    decreases |chs|
  {
    if chs == [] then [] else [(ChapterAnchor(counter), chs[0].name)] + ChapterIds(chs[1..], counter + 1)
  }

  /** The chapter at position `p` of `chs` is numbered `counter + p`. */
  lemma {:induction false} ChapterIdsAt(chs: seq<Chapter>, counter: nat, p: nat)
    requires p < |chs|
    ensures ChapterIds(chs, counter)[p] == (ChapterAnchor(counter + p), chs[p].name)
    decreases p
  {
    if p > 0 {
      ChapterIdsAt(chs[1..], counter + 1, p - 1);
    }
  }

  function FileNames(files: seq<FileRef>): (names: seq<string>)
    ensures |names| == |files| && forall j :: 0 <= j < |files| ==> names[j] == files[j].name
  {
    seq(|files|, j requires 0 <= j < |files| => files[j].name)
  }

  /** The names of all files of all chapters, chapter after chapter. */
  function AllFileNames(chs: seq<Chapter>): seq<string> {
    if chs == [] then [] else FileNames(chs[0].files) + AllFileNames(chs[1..])
  }

  /** The names of the files of `files` that survive reading and highlighting, in order. */
  function SurvivingNames(files: seq<FileRef>, hl: Highlighter): seq<string> {
    if files == [] then
      []
    else
      (if Highlight(files[0], hl).Some? then [files[0].name] else []) + SurvivingNames(files[1..], hl)
  }

  function AllSurvivingNames(chs: seq<Chapter>, hl: Highlighter): seq<string> {
    if chs == [] then [] else SurvivingNames(chs[0].files, hl) + AllSurvivingNames(chs[1..], hl)
  }

  /** The body never shows more files than the table of contents lists, and as many only when none is skipped. */
  lemma {:induction false} SurvivingCount(files: seq<FileRef>, hl: Highlighter)
    ensures |SurvivingNames(files, hl)| <= |FileNames(files)|
    ensures |SurvivingNames(files, hl)| == |FileNames(files)| <==> forall j :: 0 <= j < |files| ==> Highlight(files[j], hl).Some?
    decreases |files|
  {
    if files != [] {
      SurvivingCount(files[1..], hl);
      if forall j :: 0 <= j < |files| ==> Highlight(files[j], hl).Some? {
        assert forall j :: 0 <= j < |files[1..]| ==> Highlight(files[1..][j], hl).Some? by {
          forall j | 0 <= j < |files[1..]| ensures Highlight(files[1..][j], hl).Some? {
            assert files[1..][j] == files[j + 1];
          }
        }
      } else if Highlight(files[0], hl).Some? {
        var j :| 0 <= j < |files| && Highlight(files[j], hl).None?;
        assert files[1..][j - 1] == files[j];
      }
    }
  }

  lemma {:induction false} TocLinksOrder(files: seq<FileRef>, counter: nat)
    ensures Select(TocLinks(files, counter), TocChapterName) == []
    ensures Select(TocLinks(files, counter), TocLinkName) == FileNames(files)
    decreases |files|
  {
    if files != [] {
      var first := [TocLink(TocHref(counter, files[0].name), files[0].name)];
      SelectAppend(first, TocLinks(files[1..], counter), TocChapterName);
      SelectAppend(first, TocLinks(files[1..], counter), TocLinkName);
      TocLinksOrder(files[1..], counter);
      assert FileNames(files) == [files[0].name] + FileNames(files[1..]);
    }
  }

  /** What a selection of the table of contents sees of its first chapter and of the rest. */
  lemma TocStep<X>(chs: seq<Chapter>, counter: nat, pick: Element -> Option<X>)
    requires chs != []
    ensures Select(TocEntries(chs, counter), pick) ==
      Select([TocChapter(chs[0].name)], pick) + Select(TocLinks(chs[0].files, counter), pick)
      + Select([TocChapterClose], pick) + Select(TocEntries(chs[1..], counter + 1), pick)
  {
    var head := [TocChapter(chs[0].name)];
    var links := TocLinks(chs[0].files, counter);
    var rest := TocEntries(chs[1..], counter + 1);
    assert TocEntries(chs, counter) == head + links + [TocChapterClose] + rest;
    Concat4(head, links, [TocChapterClose], rest, pick);
  }

  /** What the selections see of a chapter entry and of its closing. */
  lemma TocFrameSelect(name: string)
    ensures Select([TocChapter(name)], TocChapterName) == [name]
    ensures Select([TocChapter(name)], TocLinkName) == []
    ensures Select([TocChapterClose], TocChapterName) == []
    ensures Select([TocChapterClose], TocLinkName) == []
  {
    assert [TocChapter(name)][1..] == [] && [TocChapterClose][1..] == [];
  }

  lemma {:induction false} TocChapterOrder(chs: seq<Chapter>, counter: nat)
    ensures Select(TocEntries(chs, counter), TocChapterName) == ChapterNames(chs)
    decreases |chs|
  {
    if chs != [] {
      var head := [TocChapter(chs[0].name)];
      calc {
        Select(TocEntries(chs, counter), TocChapterName);
        { TocStep(chs, counter, TocChapterName); }
        Select(head, TocChapterName) + Select(TocLinks(chs[0].files, counter), TocChapterName)
        + Select([TocChapterClose], TocChapterName) + Select(TocEntries(chs[1..], counter + 1), TocChapterName);
        { TocFrameSelect(chs[0].name);
          TocLinksOrder(chs[0].files, counter);
          TocChapterOrder(chs[1..], counter + 1); }
        [chs[0].name] + [] + [] + ChapterNames(chs[1..]);
      }
    }
  }

  lemma {:induction false} TocLinkOrder(chs: seq<Chapter>, counter: nat)
    ensures Select(TocEntries(chs, counter), TocLinkName) == AllFileNames(chs)
    decreases |chs|
  {
    if chs != [] {
      var head := [TocChapter(chs[0].name)];
      calc {
        Select(TocEntries(chs, counter), TocLinkName);
        { TocStep(chs, counter, TocLinkName); }
        Select(head, TocLinkName) + Select(TocLinks(chs[0].files, counter), TocLinkName)
        + Select([TocChapterClose], TocLinkName) + Select(TocEntries(chs[1..], counter + 1), TocLinkName);
        { TocFrameSelect(chs[0].name);
          TocLinksOrder(chs[0].files, counter);
          TocLinkOrder(chs[1..], counter + 1); }
        [] + FileNames(chs[0].files) + [] + AllFileNames(chs[1..]);
      }
    }
  }

  lemma FileSectionNames(f: FileRef, counter: nat, hl: Highlighter)
    ensures Select(FileSection(f, counter, hl), FileHeadingName) == if Highlight(f, hl).Some? then [f.name] else []
  {
    match Highlight(f, hl)
    case None =>
    case Some(markup) =>
      var s := FileSection(f, counter, hl);
      assert s[1..] == [Highlighted(markup)] && s[1..][1..] == [];
      assert Select(s[1..], FileHeadingName) == [];
      assert Select(s, FileHeadingName) == [f.name] + Select(s[1..], FileHeadingName);
  }

  lemma {:induction false} FileSectionsOrder(files: seq<FileRef>, counter: nat, hl: Highlighter)
    ensures Select(FileSections(files, counter, hl), FileHeadingName) == SurvivingNames(files, hl)
    decreases |files|
  {
    if files != [] {
      var first := FileSection(files[0], counter, hl);
      var rest := FileSections(files[1..], counter, hl);
      assert Select(first, FileHeadingName) == (if Highlight(files[0], hl).Some? then [files[0].name] else []) by {
        FileSectionNames(files[0], counter, hl);
      }
      assert Select(rest, FileHeadingName) == SurvivingNames(files[1..], hl) by {
        FileSectionsOrder(files[1..], counter, hl);
      }
      SelectAppend(first, rest, FileHeadingName);
    }
  }

  lemma Concat4<X>(a: seq<Element>, b: seq<Element>, c: seq<Element>, d: seq<Element>, pick: Element -> Option<X>)
    ensures Select(a + b + c + d, pick) == Select(a, pick) + Select(b, pick) + Select(c, pick) + Select(d, pick)
  {
    SelectAppend(a + b + c, d, pick);
    SelectAppend(a + b, c, pick);
    SelectAppend(a, b, pick);
  }

  /** What a selection of the body sees of its first chapter and of the rest. */
  lemma SectionsStep<X>(chs: seq<Chapter>, counter: nat, descs: map<string, string>, hl: Highlighter,
                        pick: Element -> Option<X>)
    requires chs != []
    ensures Select(Sections(chs, counter, descs, hl), pick) ==
      Select([ChapterHeading(ChapterAnchor(counter), chs[0].name)], pick)
      + Select(DescriptionPart(chs[0].name, descs), pick)
      + Select(FileSections(chs[0].files, counter, hl), pick)
      + Select(Sections(chs[1..], counter + 1, descs, hl), pick)
  {
    var head := [ChapterHeading(ChapterAnchor(counter), chs[0].name)];
    var desc := DescriptionPart(chs[0].name, descs);
    var files := FileSections(chs[0].files, counter, hl);
    var rest := Sections(chs[1..], counter + 1, descs, hl);
    assert Sections(chs, counter, descs, hl) == head + desc + files + rest;
    Concat4(head, desc, files, rest, pick);
  }

  /** What the selections see of a chapter heading. */
  lemma HeadingSelect(counter: nat, name: string)
    ensures Select([ChapterHeading(ChapterAnchor(counter), name)], BodyChapter) == [(ChapterAnchor(counter), name)]
    ensures Select([ChapterHeading(ChapterAnchor(counter), name)], FileHeadingName) == []
    ensures Select([ChapterHeading(ChapterAnchor(counter), name)], DescriptionText) == []
  {
    assert [ChapterHeading(ChapterAnchor(counter), name)][1..] == [];
  }

  /** No description element is seen by a selection that ignores descriptions. */
  lemma DescriptionPartNothing<X>(name: string, descs: map<string, string>, pick: Element -> Option<X>)
    requires name in descs ==> pick(Description(descs[name])).None?
    ensures Select(DescriptionPart(name, descs), pick) == []
  {
    if name in descs {
      assert DescriptionPart(name, descs)[1..] == [];
    }
  }

  lemma {:induction false} SectionsChapterOrder(chs: seq<Chapter>, counter: nat, descs: map<string, string>, hl: Highlighter)
    ensures Select(Sections(chs, counter, descs, hl), BodyChapter) == ChapterIds(chs, counter)
    decreases |chs|
  {
    if chs != [] {
      var head := [ChapterHeading(ChapterAnchor(counter), chs[0].name)];
      var files := FileSections(chs[0].files, counter, hl);
      calc {
        Select(Sections(chs, counter, descs, hl), BodyChapter);
        { SectionsStep(chs, counter, descs, hl, BodyChapter); }
        Select(head, BodyChapter) + Select(DescriptionPart(chs[0].name, descs), BodyChapter)
        + Select(files, BodyChapter) + Select(Sections(chs[1..], counter + 1, descs, hl), BodyChapter);
        { HeadingSelect(counter, chs[0].name);
          DescriptionPartNothing(chs[0].name, descs, BodyChapter);
          FileSectionsKinds(chs[0].files, counter, hl);
          SelectNothing(files, BodyChapter);
          SectionsChapterOrder(chs[1..], counter + 1, descs, hl); }
        [(ChapterAnchor(counter), chs[0].name)] + [] + [] + ChapterIds(chs[1..], counter + 1);
      }
    }
  }

  lemma {:induction false} SectionsFileOrder(chs: seq<Chapter>, counter: nat, descs: map<string, string>, hl: Highlighter)
    ensures Select(Sections(chs, counter, descs, hl), FileHeadingName) == AllSurvivingNames(chs, hl)
    decreases |chs|
  {
    if chs != [] {
      var head := [ChapterHeading(ChapterAnchor(counter), chs[0].name)];
      var files := FileSections(chs[0].files, counter, hl);
      calc {
        Select(Sections(chs, counter, descs, hl), FileHeadingName);
        { SectionsStep(chs, counter, descs, hl, FileHeadingName); }
        Select(head, FileHeadingName) + Select(DescriptionPart(chs[0].name, descs), FileHeadingName)
        + Select(files, FileHeadingName) + Select(Sections(chs[1..], counter + 1, descs, hl), FileHeadingName);
        { HeadingSelect(counter, chs[0].name);
          DescriptionPartNothing(chs[0].name, descs, FileHeadingName); }
        Select(files, FileHeadingName) + Select(Sections(chs[1..], counter + 1, descs, hl), FileHeadingName);
        { FileSectionsOrder(chs[0].files, counter, hl);
          SectionsFileOrder(chs[1..], counter + 1, descs, hl); }
        SurvivingNames(chs[0].files, hl) + AllSurvivingNames(chs[1..], hl);
      }
    }
  }

  function DescriptionText(e: Element): Option<string> {
    if e.Description? then Some(e.text) else None
  }

  /** The description chapter `name` shows, if it has one. */
  function NoteOf(name: string, descs: map<string, string>): seq<string> {
    if name in descs then [descs[name]] else []
  }

  /** The descriptions of the chapters of `chs` that have one, in chapter order. */
  function ChapterDescriptions(chs: seq<Chapter>, descs: map<string, string>): seq<string> {
    if chs == [] then [] else NoteOf(chs[0].name, descs) + ChapterDescriptions(chs[1..], descs)
  }

  lemma DescriptionPartText(name: string, descs: map<string, string>)
    ensures Select(DescriptionPart(name, descs), DescriptionText) == NoteOf(name, descs)
  {
    if name in descs {
      assert DescriptionPart(name, descs)[1..] == [];
    }
  }

  lemma {:induction false} SectionsDescriptionOrder(chs: seq<Chapter>, counter: nat, descs: map<string, string>, hl: Highlighter)
    ensures Select(Sections(chs, counter, descs, hl), DescriptionText) == ChapterDescriptions(chs, descs)
    decreases |chs|
  {
    if chs != [] {
      var head := [ChapterHeading(ChapterAnchor(counter), chs[0].name)];
      var files := FileSections(chs[0].files, counter, hl);
      calc {
        Select(Sections(chs, counter, descs, hl), DescriptionText);
        { SectionsStep(chs, counter, descs, hl, DescriptionText); }
        Select(head, DescriptionText) + Select(DescriptionPart(chs[0].name, descs), DescriptionText)
        + Select(files, DescriptionText) + Select(Sections(chs[1..], counter + 1, descs, hl), DescriptionText);
        { HeadingSelect(counter, chs[0].name);
          DescriptionPartText(chs[0].name, descs);
          FileSectionsKinds(chs[0].files, counter, hl);
          SelectNothing(files, DescriptionText);
          SectionsDescriptionOrder(chs[1..], counter + 1, descs, hl); }
        [] + NoteOf(chs[0].name, descs) + [] + ChapterDescriptions(chs[1..], descs);
      }
    }
  }

  /**
   * The table of contents and the body present the chapters in the same
   * order, the order of `chs`; the body numbers them from 1. The table of
   * contents names every file, chapter after chapter; the body only the files
   * that survive, in the same relative order.
   */
  lemma DocumentOrder(title: string, styleDefs: string, chs: seq<Chapter>, descs: map<string, string>, hl: Highlighter)
    ensures Select(Document(title, styleDefs, chs, descs, hl), TocChapterName) == ChapterNames(chs)
    ensures Select(Document(title, styleDefs, chs, descs, hl), BodyChapter) == ChapterIds(chs, 1)
    ensures Select(Document(title, styleDefs, chs, descs, hl), TocLinkName) == AllFileNames(chs)
    ensures Select(Document(title, styleDefs, chs, descs, hl), FileHeadingName) == AllSurvivingNames(chs, hl)
    ensures Select(Document(title, styleDefs, chs, descs, hl), DescriptionText) == ChapterDescriptions(chs, descs)
  {
    DocumentDescriptionOrder(title, styleDefs, chs, descs, hl);
    DocumentTocChapters(title, styleDefs, chs, descs, hl);
    DocumentBodyChapters(title, styleDefs, chs, descs, hl);
    DocumentTocLinks(title, styleDefs, chs, descs, hl);
    DocumentFileHeadingOrder(title, styleDefs, chs, descs, hl);
  }

  lemma DocumentTocChapters(title: string, styleDefs: string, chs: seq<Chapter>, descs: map<string, string>, hl: Highlighter)
    ensures Select(Document(title, styleDefs, chs, descs, hl), TocChapterName) == ChapterNames(chs)
  {
    BodyHasNoFrame(chs, 1, descs, hl);
    TocChapterOrder(chs, 0);
    SelectNothing(Sections(chs, 1, descs, hl), TocChapterName);
    DocumentSelect(title, styleDefs, chs, descs, hl, TocChapterName);
  }

  lemma DocumentBodyChapters(title: string, styleDefs: string, chs: seq<Chapter>, descs: map<string, string>, hl: Highlighter)
    ensures Select(Document(title, styleDefs, chs, descs, hl), BodyChapter) == ChapterIds(chs, 1)
  {
    TocHasNoFrame(chs, 0);
    SectionsChapterOrder(chs, 1, descs, hl);
    SelectNothing(TocEntries(chs, 0), BodyChapter);
    DocumentSelect(title, styleDefs, chs, descs, hl, BodyChapter);
  }

  lemma DocumentTocLinks(title: string, styleDefs: string, chs: seq<Chapter>, descs: map<string, string>, hl: Highlighter)
    ensures Select(Document(title, styleDefs, chs, descs, hl), TocLinkName) == AllFileNames(chs)
  {
    BodyHasNoFrame(chs, 1, descs, hl);
    TocLinkOrder(chs, 0);
    SelectNothing(Sections(chs, 1, descs, hl), TocLinkName);
    DocumentSelect(title, styleDefs, chs, descs, hl, TocLinkName);
  }

  lemma DocumentFileHeadingOrder(title: string, styleDefs: string, chs: seq<Chapter>, descs: map<string, string>, hl: Highlighter)
    ensures Select(Document(title, styleDefs, chs, descs, hl), FileHeadingName) == AllSurvivingNames(chs, hl)
  {
    TocHasNoFrame(chs, 0);
    SectionsFileOrder(chs, 1, descs, hl);
    SelectNothing(TocEntries(chs, 0), FileHeadingName);
    DocumentSelect(title, styleDefs, chs, descs, hl, FileHeadingName);
  }

  lemma DocumentDescriptionOrder(title: string, styleDefs: string, chs: seq<Chapter>, descs: map<string, string>, hl: Highlighter)
    ensures Select(Document(title, styleDefs, chs, descs, hl), DescriptionText) == ChapterDescriptions(chs, descs)
  {
    TocHasNoFrame(chs, 0);
    SectionsDescriptionOrder(chs, 1, descs, hl);
    SelectNothing(TocEntries(chs, 0), DescriptionText);
    DocumentSelect(title, styleDefs, chs, descs, hl, DescriptionText);
  }

  lemma DocumentShape(title: string, styleDefs: string, chs: seq<Chapter>, descs: map<string, string>, hl: Highlighter)
    ensures Document(title, styleDefs, chs, descs, hl) ==
      [Prelude(styleDefs), Title(title), TocOpen] + TocEntries(chs, 0) + [TocClose] + (Sections(chs, 1, descs, hl) + [Close])
  {
  }

  /** A selection of `front + toc + [TocClose] + (body + [Close])` that ignores the frame sees only `toc` and `body`. */
  lemma SelectFramed<X>(front: seq<Element>, toc: seq<Element>, body: seq<Element>, pick: Element -> Option<X>)
    requires forall e :: e in front ==> pick(e).None?
    requires pick(TocClose).None? && pick(Close).None?
    ensures Select(front + toc + [TocClose] + (body + [Close]), pick) == Select(toc, pick) + Select(body, pick)
  {
    Concat4(front, toc, [TocClose], body + [Close], pick);
    SelectAppend(body, [Close], pick);
    SelectNothing(front, pick);
    SelectNothing([TocClose], pick);
    SelectNothing([Close], pick);
  }

  /** What a selection of the document sees: its two halves, for a selection that ignores the frame. */
  lemma DocumentSelect<X>(title: string, styleDefs: string, chs: seq<Chapter>, descs: map<string, string>,
                          hl: Highlighter, pick: Element -> Option<X>)
    requires pick(Prelude(styleDefs)).None? && pick(Title(title)).None? && pick(TocOpen).None?
    requires pick(TocClose).None? && pick(Close).None?
    ensures Select(Document(title, styleDefs, chs, descs, hl), pick) ==
      Select(TocEntries(chs, 0), pick) + Select(Sections(chs, 1, descs, hl), pick)
  {
    DocumentShape(title, styleDefs, chs, descs, hl);
    SelectFramed([Prelude(styleDefs), Title(title), TocOpen], TocEntries(chs, 0), Sections(chs, 1, descs, hl), pick);
  }

  // Nesting: what each chapter's item and section hold, several element kinds at once.

  /** The outline of the table of contents: chapter items, file links with their targets, and item closers. */
  datatype TocMark = Open(name: string) | Link(href: string, name: string) | Shut

  /** The outline of the body: chapter headings, descriptions and file headings with their ids. */
  datatype BodyMark = Head(name: string) | Note(text: string) | File(id: string, name: string)

  function TocMarkOf(e: Element): Option<TocMark> {
    match e
    case TocChapter(name) => Some(Open(name))
    case TocLink(href, name) => Some(Link(href, name))
    case TocChapterClose => Some(Shut)
    case _ => None
  }

  function BodyMarkOf(e: Element): Option<BodyMark> {
    match e
    case ChapterHeading(_, name) => Some(Head(name))
    case Description(text) => Some(Note(text))
    case FileHeading(id, name) => Some(File(id, name))
    case _ => None
  }

  /** A link per name, each targeting that name's file under `counter`. */
  function Links(counter: nat, names: seq<string>): (r: seq<TocMark>)
    ensures |r| == |names| && forall j :: 0 <= j < |names| ==> r[j] == Link(TocHref(counter, names[j]), names[j])
  {
    seq(|names|, j requires 0 <= j < |names| => Link(TocHref(counter, names[j]), names[j]))
  }

  /** A file heading per name, each with that name's anchor under `counter`. */
  function Files(counter: nat, names: seq<string>): (r: seq<BodyMark>)
    ensures |r| == |names| && forall j :: 0 <= j < |names| ==> r[j] == File(FileAnchor(counter, names[j]), names[j])
  {
    seq(|names|, j requires 0 <= j < |names| => File(FileAnchor(counter, names[j]), names[j]))
  }

  function Notes(texts: seq<string>): (r: seq<BodyMark>)
    ensures |r| == |texts| && forall j :: 0 <= j < |texts| ==> r[j] == Note(texts[j])
  {
    seq(|texts|, j requires 0 <= j < |texts| => Note(texts[j]))
  }

  /**
   * Each chapter's item, holding a link per listed file to that file under
   * the chapter's counter, then its closer; chapter after chapter, the
   * counter going up by one.
   */
  function TocNesting(chs: seq<Chapter>, counter: nat): seq<TocMark> {
    if chs == [] then
      []
    else
      [Open(chs[0].name)] + Links(counter, FileNames(chs[0].files)) + [Shut] + TocNesting(chs[1..], counter + 1)
  }

  /**
   * Each chapter's heading, then its description if any, then a heading per
   * surviving file with its anchor under the chapter's counter; chapter after
   * chapter, the counter going up by one.
   */
  function BodyNesting(chs: seq<Chapter>, counter: nat, descs: map<string, string>, hl: Highlighter): seq<BodyMark> {
    if chs == [] then
      []
    else
      [Head(chs[0].name)] + Notes(NoteOf(chs[0].name, descs)) + Files(counter, SurvivingNames(chs[0].files, hl))
      + BodyNesting(chs[1..], counter + 1, descs, hl)
  }

  lemma FilesAppend(counter: nat, a: seq<string>, b: seq<string>)
    ensures Files(counter, a + b) == Files(counter, a) + Files(counter, b)
  {
    assert forall j :: 0 <= j < |a + b| ==> Files(counter, a + b)[j] == (Files(counter, a) + Files(counter, b))[j];
  }

  /** A chapter's file entries in the table of contents are one link per listed file, in order. */
  lemma {:induction false} TocLinksNesting(files: seq<FileRef>, counter: nat)
    ensures Select(TocLinks(files, counter), TocMarkOf) == Links(counter, FileNames(files))
    decreases |files|
  {
    if files != [] {
      var first := [TocLink(TocHref(counter, files[0].name), files[0].name)];
      var rest := TocLinks(files[1..], counter);
      assert TocLinks(files, counter) == first + rest;
      SelectAppend(first, rest, TocMarkOf);
      assert first[1..] == [];
      TocLinksNesting(files[1..], counter);
      assert Links(counter, FileNames(files)) ==
        [Link(TocHref(counter, files[0].name), files[0].name)] + Links(counter, FileNames(files[1..]));
    }
  }

  lemma TocFrameMarks(name: string)
    ensures Select([TocChapter(name)], TocMarkOf) == [Open(name)]
    ensures Select([TocChapterClose], TocMarkOf) == [Shut]
  {
    assert [TocChapter(name)][1..] == [] && [TocChapterClose][1..] == [];
  }

  /**
   * The table of contents opens an item for each chapter, lists exactly that
   * chapter's files inside it and closes it before the next chapter's item.
   */
  lemma {:induction false} TocEntriesNesting(chs: seq<Chapter>, counter: nat)
    ensures Select(TocEntries(chs, counter), TocMarkOf) == TocNesting(chs, counter)
    decreases |chs|
  {
    if chs != [] {
      calc {
        Select(TocEntries(chs, counter), TocMarkOf);
        { TocStep(chs, counter, TocMarkOf); }
        Select([TocChapter(chs[0].name)], TocMarkOf) + Select(TocLinks(chs[0].files, counter), TocMarkOf)
        + Select([TocChapterClose], TocMarkOf) + Select(TocEntries(chs[1..], counter + 1), TocMarkOf);
        { TocFrameMarks(chs[0].name);
          TocLinksNesting(chs[0].files, counter);
          TocEntriesNesting(chs[1..], counter + 1); }
        [Open(chs[0].name)] + Links(counter, FileNames(chs[0].files)) + [Shut] + TocNesting(chs[1..], counter + 1);
      }
    }
  }

  lemma FileSectionMarks(f: FileRef, counter: nat, hl: Highlighter)
    ensures Select(FileSection(f, counter, hl), BodyMarkOf) ==
      if Highlight(f, hl).Some? then [File(FileAnchor(counter, f.name), f.name)] else []
  {
    match Highlight(f, hl)
    case None =>
    case Some(markup) =>
      var s := FileSection(f, counter, hl);
      assert s[1..] == [Highlighted(markup)] && s[1..][1..] == [];
      assert Select(s[1..], BodyMarkOf) == [];
      assert Select(s, BodyMarkOf) == [File(FileAnchor(counter, f.name), f.name)] + Select(s[1..], BodyMarkOf);
  }

  /** A chapter's file part shows one file heading per surviving file and nothing else of the outline. */
  lemma {:induction false} FileSectionsNesting(files: seq<FileRef>, counter: nat, hl: Highlighter)
    ensures Select(FileSections(files, counter, hl), BodyMarkOf) == Files(counter, SurvivingNames(files, hl))
    decreases |files|
  {
    if files != [] {
      var first := FileSection(files[0], counter, hl);
      var rest := FileSections(files[1..], counter, hl);
      var own := if Highlight(files[0], hl).Some? then [files[0].name] else [];
      SelectAppend(first, rest, BodyMarkOf);
      FileSectionMarks(files[0], counter, hl);
      FileSectionsNesting(files[1..], counter, hl);
      FilesAppend(counter, own, SurvivingNames(files[1..], hl));
      assert Files(counter, own) ==
        if Highlight(files[0], hl).Some? then [File(FileAnchor(counter, files[0].name), files[0].name)] else [];
    }
  }

  lemma OpeningMarks(counter: nat, name: string, descs: map<string, string>)
    ensures Select([ChapterHeading(ChapterAnchor(counter), name)], BodyMarkOf) == [Head(name)]
    ensures Select(DescriptionPart(name, descs), BodyMarkOf) == Notes(NoteOf(name, descs))
  {
    assert [ChapterHeading(ChapterAnchor(counter), name)][1..] == [];
    if name in descs {
      assert DescriptionPart(name, descs)[1..] == [];
    }
  }

  /**
   * The body heads each chapter, then shows that chapter's description, if
   * any, then the headings of exactly that chapter's surviving files, all
   * before the next chapter's heading.
   */
  lemma {:induction false} SectionsNesting(chs: seq<Chapter>, counter: nat, descs: map<string, string>, hl: Highlighter)
    ensures Select(Sections(chs, counter, descs, hl), BodyMarkOf) == BodyNesting(chs, counter, descs, hl)
    decreases |chs|
  {
    if chs != [] {
      calc {
        Select(Sections(chs, counter, descs, hl), BodyMarkOf);
        { SectionsStep(chs, counter, descs, hl, BodyMarkOf); }
        Select([ChapterHeading(ChapterAnchor(counter), chs[0].name)], BodyMarkOf)
        + Select(DescriptionPart(chs[0].name, descs), BodyMarkOf)
        + Select(FileSections(chs[0].files, counter, hl), BodyMarkOf)
        + Select(Sections(chs[1..], counter + 1, descs, hl), BodyMarkOf);
        { OpeningMarks(counter, chs[0].name, descs);
          FileSectionsNesting(chs[0].files, counter, hl);
          SectionsNesting(chs[1..], counter + 1, descs, hl); }
        [Head(chs[0].name)] + Notes(NoteOf(chs[0].name, descs)) + Files(counter, SurvivingNames(chs[0].files, hl))
        + BodyNesting(chs[1..], counter + 1, descs, hl);
      }
    }
  }

  /** In the whole document, both halves nest each chapter's files, and the body its description, under that chapter. */
  lemma DocumentNesting(title: string, styleDefs: string, chs: seq<Chapter>, descs: map<string, string>, hl: Highlighter)
    ensures Select(Document(title, styleDefs, chs, descs, hl), TocMarkOf) == TocNesting(chs, 0)
    ensures Select(Document(title, styleDefs, chs, descs, hl), BodyMarkOf) == BodyNesting(chs, 1, descs, hl)
  {
    DocumentTocNesting(title, styleDefs, chs, descs, hl);
    DocumentBodyNesting(title, styleDefs, chs, descs, hl);
  }

  lemma DocumentTocNesting(title: string, styleDefs: string, chs: seq<Chapter>, descs: map<string, string>, hl: Highlighter)
    ensures Select(Document(title, styleDefs, chs, descs, hl), TocMarkOf) == TocNesting(chs, 0)
  {
    DocumentSelect(title, styleDefs, chs, descs, hl, TocMarkOf);
    calc {
      Select(Document(title, styleDefs, chs, descs, hl), TocMarkOf);
      Select(TocEntries(chs, 0), TocMarkOf) + Select(Sections(chs, 1, descs, hl), TocMarkOf);
      { BodyHasNoTocMarks(chs, 1, descs, hl); }
      Select(TocEntries(chs, 0), TocMarkOf);
      { TocEntriesNesting(chs, 0); }
      TocNesting(chs, 0);
    }
  }

  lemma BodyHasNoTocMarks(chs: seq<Chapter>, counter: nat, descs: map<string, string>, hl: Highlighter)
    ensures Select(Sections(chs, counter, descs, hl), TocMarkOf) == []
  {
    var body := Sections(chs, counter, descs, hl);
    BodyHasNoFrame(chs, counter, descs, hl);
    forall e | e in body ensures TocMarkOf(e).None? {
      assert BodyElement(e);
    }
    SelectNothing(body, TocMarkOf);
  }

  lemma DocumentBodyNesting(title: string, styleDefs: string, chs: seq<Chapter>, descs: map<string, string>, hl: Highlighter)
    ensures Select(Document(title, styleDefs, chs, descs, hl), BodyMarkOf) == BodyNesting(chs, 1, descs, hl)
  {
    TocHasNoFrame(chs, 0);
    SectionsNesting(chs, 1, descs, hl);
    SelectNothing(TocEntries(chs, 0), BodyMarkOf);
    DocumentSelect(title, styleDefs, chs, descs, hl, BodyMarkOf);
  }
}

=== FILE: notebook.dfy ===
/**
 * The notebook generator end to end, short of rendering: the walk of the
 * extracted archive, the chapters put in name order, and the document
 * assembled from them. Properties are stated against the walk's reference
 * definitions, so they speak about the directories and files of the archive
 * rather than about intermediate tables.
 */
module Notebook {
  import opened Wrappers
  import opened Text
  import opened Sorting
  import opened Walker
  import opened Assembly
  import opened Upload

  /** The key `sorted(folder_map.items())` orders by: chapter names are distinct, so the file lists never decide. */
  function ChapterName(ch: Chapter): string {
    ch.name
  }

  /** The chapters of a finished walk in the order both halves of the document present them. */
  function OrderedChapters(t: Tree): (chs: seq<Chapter>)
    ensures SortedBy(chs, ChapterName)
    ensures multiset(chs) == multiset(t.chapters)
  {
    Sort(t.chapters, ChapterName)
  }

  /**
   * The document for archive walk `dirs` under title `title`, or the error of
   * the first directory whose chosen description file cannot be read.
   */
  function GenerateNotebook(title: string, dirs: seq<DirRecord>, styleDefs: string, hl: Highlighter)
    : (r: Result<seq<Element>, WalkError>)
    ensures r.Failure? <==> AnyBad(dirs)
    ensures r.Success? ==> |r.value| >= 5 && r.value[0] == Prelude(styleDefs) && r.value[1] == Title(title)
  {
    WalkFailsIff(dirs);
    match Walk(dirs)
    case Failure(e) => Failure(e)
    case Success(t) => Success(Document(title, styleDefs, OrderedChapters(t), t.descriptions, hl))
  }

  /** The upload handler's part: the title field defaulted, then the notebook generated. */
  function UploadNotebook(field: Option<string>, dirs: seq<DirRecord>, styleDefs: string, hl: Highlighter)
    : (r: Result<seq<Element>, WalkError>)
    ensures r.Failure? <==> AnyBad(dirs)
    ensures r.Success? ==> |r.value| >= 5 && r.value[1].Title? && r.value[1].text != [] && Trimmed(r.value[1].text)
    ensures r.Success? && AllSpace(field.GetOr("")) ==> |r.value| >= 5 && r.value[1] == Title(DefaultTitle)
    ensures r.Success? && !AllSpace(field.GetOr("")) ==> |r.value| >= 5 && r.value[1] == Title(Strip(field.GetOr("")))
  {
    GenerateNotebook(NotebookTitle(field), dirs, styleDefs, hl)
  }

  // Reference definitions, per chapter name, from the walk's own reference definitions.

  /** The names of the files listed under each chapter of `names`, chapter after chapter. */
  function ListedNames(dirs: seq<DirRecord>, names: seq<string>): seq<string> {
    if names == [] then [] else FileNames(Gather(dirs, names[0])) + ListedNames(dirs, names[1..])
  }

  /** The same, keeping only the files that can be read and highlighted. */
  function ShownNames(dirs: seq<DirRecord>, names: seq<string>, hl: Highlighter): seq<string> {
    if names == [] then [] else SurvivingNames(Gather(dirs, names[0]), hl) + ShownNames(dirs, names[1..], hl)
  }

  /** The same files with the markup the highlighter gives each, chapter after chapter. */
  function ShownPairs(dirs: seq<DirRecord>, names: seq<string>, hl: Highlighter): seq<(string, string)> {
    if names == [] then [] else SurvivingShown(Gather(dirs, names[0]), hl) + ShownPairs(dirs, names[1..], hl)
  }

  /** The stripped text of the chosen description file of the last directory keyed `c`, if any. */
  function NoteFor(dirs: seq<DirRecord>, c: string): seq<string> {
    match LastDescription(dirs, c)
    case None => []
    case Some(f) => match f.text case None => [] case Some(x) => [Strip(x)]
  }

  function NoteTexts(dirs: seq<DirRecord>, names: seq<string>): seq<string> {
    if names == [] then [] else NoteFor(dirs, names[0]) + NoteTexts(dirs, names[1..])
  }

  /**
   * Each chapter of `names` as an item holding a link per gathered file, to
   * that file under the chapter's counter, then its closer.
   */
  function ListedNesting(dirs: seq<DirRecord>, names: seq<string>, counter: nat): seq<TocMark> {
    if names == [] then
      []
    else
      [Open(names[0])] + Links(counter, FileNames(Gather(dirs, names[0]))) + [Shut]
      + ListedNesting(dirs, names[1..], counter + 1)
  }

  /**
   * Each chapter of `names` as its heading, its reference description, then a
   * heading per surviving gathered file, with its anchor under the chapter's counter.
   */
  function ShownNesting(dirs: seq<DirRecord>, names: seq<string>, counter: nat, hl: Highlighter): seq<BodyMark> {
    if names == [] then
      []
    else
      [Head(names[0])] + Notes(NoteFor(dirs, names[0])) + Files(counter, SurvivingNames(Gather(dirs, names[0]), hl))
      + ShownNesting(dirs, names[1..], counter + 1, hl)
  }

  // Helpers.

  lemma HasChapterPermutation(a: seq<Chapter>, b: seq<Chapter>, c: string)
    requires multiset(a) == multiset(b)
    ensures HasChapter(a, c) <==> HasChapter(b, c)
  {
    if HasChapter(a, c) {
      var i :| 0 <= i < |a| && a[i].name == c;
      assert a[i] in multiset(b);
      var j :| 0 <= j < |b| && b[j] == a[i];
    }
    if HasChapter(b, c) {
      var i :| 0 <= i < |b| && b[i].name == c;
      assert b[i] in multiset(a);
      var j :| 0 <= j < |a| && a[j] == b[i];
    }
  }

  lemma ChapterNamesHas(chs: seq<Chapter>, c: string)
    ensures c in ChapterNames(chs) <==> HasChapter(chs, c)
  {
    var names := ChapterNames(chs);
    if c in names {
      var p :| 0 <= p < |names| && names[p] == c;
    }
  }

  /** Every chapter of the ordered sequence is a chapter of the walk, so its files are gathered by its name. */
  lemma OrderedGathered(dirs: seq<DirRecord>)
    requires !AnyBad(dirs)
    ensures Walk(dirs).Success?
    ensures var chs := OrderedChapters(Walk(dirs).value);
      forall p :: 0 <= p < |chs| ==> chs[p].files == Gather(dirs, chs[p].name)
  {
    WalkFailsIff(dirs);
    var t := Walk(dirs).value;
    var chs := OrderedChapters(t);
    WalkChapterGather(dirs);
    forall p | 0 <= p < |chs| ensures chs[p].files == Gather(dirs, chs[p].name) {
      assert chs[p] in multiset(t.chapters);
      var k :| 0 <= k < |t.chapters| && t.chapters[k] == chs[p];
    }
  }

  lemma {:induction false} ListedNamesOfChapters(dirs: seq<DirRecord>, chs: seq<Chapter>)
    requires forall p :: 0 <= p < |chs| ==> chs[p].files == Gather(dirs, chs[p].name)
    ensures AllFileNames(chs) == ListedNames(dirs, ChapterNames(chs))
    decreases |chs|
  {
    if chs != [] {
      assert ChapterNames(chs)[1..] == ChapterNames(chs[1..]);
      assert forall p :: 0 <= p < |chs[1..]| ==> chs[1..][p] == chs[p + 1];
      ListedNamesOfChapters(dirs, chs[1..]);
    }
  }

  lemma {:induction false} ShownNamesOfChapters(dirs: seq<DirRecord>, chs: seq<Chapter>, hl: Highlighter)
    requires forall p :: 0 <= p < |chs| ==> chs[p].files == Gather(dirs, chs[p].name)
    ensures AllSurvivingNames(chs, hl) == ShownNames(dirs, ChapterNames(chs), hl)
    decreases |chs|
  {
    if chs != [] {
      assert ChapterNames(chs)[1..] == ChapterNames(chs[1..]);
      assert forall p :: 0 <= p < |chs[1..]| ==> chs[1..][p] == chs[p + 1];
      ShownNamesOfChapters(dirs, chs[1..], hl);
    }
  }

  lemma {:induction false} ShownPairsOfChapters(dirs: seq<DirRecord>, chs: seq<Chapter>, hl: Highlighter)
    requires forall p :: 0 <= p < |chs| ==> chs[p].files == Gather(dirs, chs[p].name)
    ensures AllSurvivingShown(chs, hl) == ShownPairs(dirs, ChapterNames(chs), hl)
    decreases |chs|
  {
    if chs != [] {
      assert ChapterNames(chs)[1..] == ChapterNames(chs[1..]);
      assert forall p :: 0 <= p < |chs[1..]| ==> chs[1..][p] == chs[p + 1];
      ShownPairsOfChapters(dirs, chs[1..], hl);
    }
  }

  lemma {:induction false} NoteTextsOfChapters(dirs: seq<DirRecord>, chs: seq<Chapter>, descs: map<string, string>)
    requires forall c :: c in descs <==> LastDescription(dirs, c).Some?
    requires forall c :: c in descs ==>
      LastDescription(dirs, c).value.text.Some? && descs[c] == Strip(LastDescription(dirs, c).value.text.value)
    ensures ChapterDescriptions(chs, descs) == NoteTexts(dirs, ChapterNames(chs))
    decreases |chs|
  {
    if chs != [] {
      assert ChapterNames(chs)[1..] == ChapterNames(chs[1..]);
      NoteTextsOfChapters(dirs, chs[1..], descs);
    }
  }

  lemma {:induction false} ListedNestingOfChapters(dirs: seq<DirRecord>, chs: seq<Chapter>, counter: nat)
    requires forall p :: 0 <= p < |chs| ==> chs[p].files == Gather(dirs, chs[p].name)
    ensures TocNesting(chs, counter) == ListedNesting(dirs, ChapterNames(chs), counter)
    decreases |chs|
  {
    if chs != [] {
      assert ChapterNames(chs)[1..] == ChapterNames(chs[1..]);
      assert forall p :: 0 <= p < |chs[1..]| ==> chs[1..][p] == chs[p + 1];
      ListedNestingOfChapters(dirs, chs[1..], counter + 1);
    }
  }

  lemma {:induction false} ShownNestingOfChapters(dirs: seq<DirRecord>, chs: seq<Chapter>, counter: nat,
                                                  descs: map<string, string>, hl: Highlighter)
    requires forall p :: 0 <= p < |chs| ==> chs[p].files == Gather(dirs, chs[p].name)
    requires forall c :: c in descs <==> LastDescription(dirs, c).Some?
    requires forall c :: c in descs ==>
      LastDescription(dirs, c).value.text.Some? && descs[c] == Strip(LastDescription(dirs, c).value.text.value)
    ensures BodyNesting(chs, counter, descs, hl) == ShownNesting(dirs, ChapterNames(chs), counter, hl)
    decreases |chs|
  {
    if chs != [] {
      assert ChapterNames(chs)[1..] == ChapterNames(chs[1..]);
      assert forall p :: 0 <= p < |chs[1..]| ==> chs[1..][p] == chs[p + 1];
      assert NoteOf(chs[0].name, descs) == NoteFor(dirs, chs[0].name);
      ShownNestingOfChapters(dirs, chs[1..], counter + 1, descs, hl);
    }
  }

  lemma ChapterIdsNumbered(chs: seq<Chapter>)
    ensures var ids := ChapterIds(chs, 1); var names := ChapterNames(chs);
      |ids| == |names| && forall p :: 0 <= p < |names| ==> ids[p] == (ChapterAnchor(p + 1), names[p])
  {
    forall p | 0 <= p < |chs| ensures ChapterIds(chs, 1)[p] == (ChapterAnchor(p + 1), ChapterNames(chs)[p]) {
      ChapterIdsAt(chs, 1, p);
    }
  }

  // Properties of the generated notebook.

  /** The table of contents names the chapters once each, in strictly ascending code-point order. */
  lemma NotebookChapterOrder(title: string, dirs: seq<DirRecord>, styleDefs: string, hl: Highlighter)
    requires GenerateNotebook(title, dirs, styleDefs, hl).Success?
    ensures var names := Select(GenerateNotebook(title, dirs, styleDefs, hl).value, TocChapterName);
      forall i, j :: 0 <= i < j < |names| ==> names[i] != names[j] && LessEq(names[i], names[j])
  {
    WalkFailsIff(dirs);
    var t := Walk(dirs).value;
    var chs := OrderedChapters(t);
    DocumentTocChapters(title, styleDefs, chs, t.descriptions, hl);
    WalkChapterKeys(dirs);
    SortDistinctIsStrict(t.chapters, ChapterName);
  }

  /** The chapters the table of contents names are exactly the chapter keys of the walked directories. */
  lemma NotebookChapterKeys(title: string, dirs: seq<DirRecord>, styleDefs: string, hl: Highlighter)
    requires GenerateNotebook(title, dirs, styleDefs, hl).Success?
    ensures var names := Select(GenerateNotebook(title, dirs, styleDefs, hl).value, TocChapterName);
      forall c :: c in names <==> Visited(dirs, c)
  {
    WalkFailsIff(dirs);
    var t := Walk(dirs).value;
    var chs := OrderedChapters(t);
    DocumentTocChapters(title, styleDefs, chs, t.descriptions, hl);
    WalkChapterKeys(dirs);
    var names := ChapterNames(chs);
    forall c ensures c in names <==> Visited(dirs, c) {
      ChapterNamesHas(chs, c);
      HasChapterPermutation(chs, t.chapters, c);
    }
  }

  /** The body heads the same chapters in the same order, the one at position p with anchor `chapter{p+1}`. */
  lemma NotebookNumbering(title: string, dirs: seq<DirRecord>, styleDefs: string, hl: Highlighter)
    requires GenerateNotebook(title, dirs, styleDefs, hl).Success?
    ensures var doc := GenerateNotebook(title, dirs, styleDefs, hl).value;
      var names := Select(doc, TocChapterName);
      var ids := Select(doc, BodyChapter);
      |ids| == |names| && forall p :: 0 <= p < |names| ==> ids[p] == (ChapterAnchor(p + 1), names[p])
  {
    WalkFailsIff(dirs);
    var t := Walk(dirs).value;
    var chs := OrderedChapters(t);
    DocumentTocChapters(title, styleDefs, chs, t.descriptions, hl);
    DocumentBodyChapters(title, styleDefs, chs, t.descriptions, hl);
    ChapterIdsNumbered(chs);
  }

  /**
   * The table of contents lists, chapter after chapter, every file the walk
   * gathered under that chapter; the body heads only those that can be read
   * and highlighted, in the same order.
   */
  lemma NotebookFiles(title: string, dirs: seq<DirRecord>, styleDefs: string, hl: Highlighter)
    requires GenerateNotebook(title, dirs, styleDefs, hl).Success?
    ensures var doc := GenerateNotebook(title, dirs, styleDefs, hl).value;
      var names := Select(doc, TocChapterName);
      Select(doc, TocLinkName) == ListedNames(dirs, names)
      && Select(doc, FileHeadingName) == ShownNames(dirs, names, hl)
  {
    WalkFailsIff(dirs);
    var t := Walk(dirs).value;
    var chs := OrderedChapters(t);
    DocumentTocChapters(title, styleDefs, chs, t.descriptions, hl);
    DocumentTocLinks(title, styleDefs, chs, t.descriptions, hl);
    DocumentFileHeadingOrder(title, styleDefs, chs, t.descriptions, hl);
    OrderedGathered(dirs);
    ListedNamesOfChapters(dirs, chs);
    ShownNamesOfChapters(dirs, chs, hl);
  }

  /**
   * Every file heading of the notebook is directly followed by markup, and
   * the (name, markup) pairs the body shows are, chapter after chapter, the
   * gathered files that can be read and highlighted, each with the markup the
   * highlighter gives that file's own name and text.
   */
  lemma NotebookMarkup(title: string, dirs: seq<DirRecord>, styleDefs: string, hl: Highlighter)
    requires GenerateNotebook(title, dirs, styleDefs, hl).Success?
    ensures var doc := GenerateNotebook(title, dirs, styleDefs, hl).value;
      MarkupFollowsHeadings(doc) && ShownFiles(doc) == ShownPairs(dirs, Select(doc, TocChapterName), hl)
  {
    WalkFailsIff(dirs);
    var t := Walk(dirs).value;
    var chs := OrderedChapters(t);
    DocumentTocChapters(title, styleDefs, chs, t.descriptions, hl);
    DocumentPaired(title, styleDefs, chs, t.descriptions, hl);
    DocumentShown(title, styleDefs, chs, t.descriptions, hl);
    OrderedGathered(dirs);
    ShownPairsOfChapters(dirs, chs, hl);
  }

  /**
   * Each chapter's files sit under that chapter in both halves. The table of
   * contents opens an item per chapter, links exactly the files gathered
   * under it and closes it before the next. The body heads each chapter, then
   * shows its last chosen description, then heads exactly its gathered files
   * that can be read and highlighted, before the next chapter's heading.
   */
  lemma NotebookNesting(title: string, dirs: seq<DirRecord>, styleDefs: string, hl: Highlighter)
    requires GenerateNotebook(title, dirs, styleDefs, hl).Success?
    ensures var doc := GenerateNotebook(title, dirs, styleDefs, hl).value;
      var names := Select(doc, TocChapterName);
      Select(doc, TocMarkOf) == ListedNesting(dirs, names, 0)
      && Select(doc, BodyMarkOf) == ShownNesting(dirs, names, 1, hl)
  {
    WalkFailsIff(dirs);
    var t := Walk(dirs).value;
    var chs := OrderedChapters(t);
    DocumentTocChapters(title, styleDefs, chs, t.descriptions, hl);
    DocumentTocNesting(title, styleDefs, chs, t.descriptions, hl);
    DocumentBodyNesting(title, styleDefs, chs, t.descriptions, hl);
    OrderedGathered(dirs);
    WalkDescriptionsLast(dirs);
    ListedNestingOfChapters(dirs, chs, 0);
    ShownNestingOfChapters(dirs, chs, 1, t.descriptions, hl);
  }

  /** The body shows, in chapter order, the stripped text of each chapter's last chosen description file. */
  lemma NotebookDescriptions(title: string, dirs: seq<DirRecord>, styleDefs: string, hl: Highlighter)
    requires GenerateNotebook(title, dirs, styleDefs, hl).Success?
    ensures var doc := GenerateNotebook(title, dirs, styleDefs, hl).value;
      Select(doc, DescriptionText) == NoteTexts(dirs, Select(doc, TocChapterName))
  {
    WalkFailsIff(dirs);
    var t := Walk(dirs).value;
    var chs := OrderedChapters(t);
    DocumentTocChapters(title, styleDefs, chs, t.descriptions, hl);
    DocumentDescriptionOrder(title, styleDefs, chs, t.descriptions, hl);
    WalkDescriptionsLast(dirs);
    NoteTextsOfChapters(dirs, chs, t.descriptions);
  }
}

=== FILE: sorting.dfy ===
/**
 * Python's `sorted()` on sequences whose order is decided by a string key:
 * a stable insertion sort under the code-point order of `Text.LessEq`.
 */
module Sorting {
  import opened Text

  /** `s` is in ascending key order. */
  predicate SortedBy<T>(s: seq<T>, key: T -> string) {
    forall i, j :: 0 <= i < j < |s| ==> LessEq(key(s[i]), key(s[j]))
  }

  /** `s` is in strictly ascending key order, so no key occurs twice. */
  predicate StrictlySortedBy<T>(s: seq<T>, key: T -> string) {
    forall i, j :: 0 <= i < j < |s| ==> key(s[i]) != key(s[j]) && LessEq(key(s[i]), key(s[j]))
  }

  /** Places `x` in front of the first element whose key is not below its own. */
  function Insert<T>(x: T, s: seq<T>, key: T -> string): (r: seq<T>)
    requires SortedBy(s, key)
    ensures SortedBy(r, key)
    ensures multiset(r) == multiset(s) + multiset{x}
    ensures |r| == |s| + 1
  {
    if s == [] then
      [x]
    else if LessEq(key(x), key(s[0])) then
      InsertFront(x, s, key);
      [x] + s
    else
      var rest := Insert(x, s[1..], key);
      InsertBehind(x, s, rest, key);
      [s[0]] + rest
  }

  /** When `x` goes after the head of `s`, putting the head back in front of the rest keeps the order. */
  lemma InsertBehind<T>(x: T, s: seq<T>, rest: seq<T>, key: T -> string)
    requires SortedBy(s, key) && s != [] && !LessEq(key(x), key(s[0]))
    requires SortedBy(rest, key) && multiset(rest) == multiset(s[1..]) + multiset{x}
    ensures SortedBy([s[0]] + rest, key)
    ensures multiset([s[0]] + rest) == multiset(s) + multiset{x}
  {
    LessEqTotal(key(x), key(s[0]));
    assert s == [s[0]] + s[1..];
    FrontStaysSorted(s[0], rest, key);
  }

  lemma InsertFront<T>(x: T, s: seq<T>, key: T -> string)
    requires SortedBy(s, key) && s != [] && LessEq(key(x), key(s[0]))
    ensures SortedBy([x] + s, key)
  {
    var r := [x] + s;
    forall i, j | 0 <= i < j < |r| ensures LessEq(key(r[i]), key(r[j])) {
      if i == 0 && j > 1 {
        LessEqTransitive(key(x), key(s[0]), key(s[j - 1]));
      }
    }
  }

  lemma FrontStaysSorted<T>(y: T, rest: seq<T>, key: T -> string)
    requires SortedBy(rest, key)
    requires forall z :: z in multiset(rest) ==> LessEq(key(y), key(z))
    ensures SortedBy([y] + rest, key)
  {
    var r := [y] + rest;
    forall i, j | 0 <= i < j < |r| ensures LessEq(key(r[i]), key(r[j])) {
      if i == 0 {
        assert r[j] in multiset(rest);
      }
    }
  }

  /** `sorted(s, key=key)`: the elements of `s`, rearranged in ascending key order. */
  function Sort<T>(s: seq<T>, key: T -> string): (r: seq<T>)
    ensures SortedBy(r, key)
    ensures multiset(r) == multiset(s)
    ensures |r| == |s|
  {
    if s == [] then
      []
    else
      assert s == [s[0]] + s[1..];
      Insert(s[0], Sort(s[1..], key), key)
  }

  /** Sorting elements whose keys are pairwise distinct yields a strictly ascending order. */
  lemma SortDistinctIsStrict<T>(s: seq<T>, key: T -> string)
    requires forall i, j :: 0 <= i < j < |s| ==> key(s[i]) != key(s[j])
    ensures StrictlySortedBy(Sort(s, key), key)
  {
    var r := Sort(s, key);
    forall i, j | 0 <= i < j < |r| ensures key(r[i]) != key(r[j]) {
      assert r[i] in multiset(s) && r[j] in multiset(s);
      var i' :| 0 <= i' < |s| && s[i'] == r[i];
      var j' :| 0 <= j' < |s| && s[j'] == r[j];
      if i' == j' {
        DuplicateCount(r, i, j);
        assert multiset(s)[r[i]] >= 2;
        SingleCount(s, i', key);
      }
    }
  }

  lemma DuplicateCount<T>(r: seq<T>, i: nat, j: nat)
    requires 0 <= i < j < |r| && r[i] == r[j]
    ensures multiset(r)[r[i]] >= 2
  {
    assert r == r[..i] + [r[i]] + r[i + 1..j] + [r[j]] + r[j + 1..];
  }

  lemma SingleCount<T>(s: seq<T>, k: nat, key: T -> string)
    requires forall i, j :: 0 <= i < j < |s| ==> key(s[i]) != key(s[j])
    requires k < |s|
    ensures multiset(s)[s[k]] == 1
  {
    assert s == s[..k] + [s[k]] + s[k + 1..];
    assert s[k] !in multiset(s[..k]);
    assert s[k] !in multiset(s[k + 1..]);
  }
}

=== FILE: text.dfy ===
/**
 * The string operations the notebook code relies on, stated over Unicode
 * scalar values: Python's whitespace set and `str.strip()`, ASCII lower-casing,
 * Python's code-point lexicographic string order, and decimal rendering of a
 * counter as an f-string does it.
 */
module Text {

  /** Python's `str.isspace()` set, which `str.strip()` without arguments removes. */
  predicate IsSpace(c: char) {
    || c == ' '
    || ('\t' <= c <= '\r')
    || ('\U{1c}' <= c <= '\U{1f}')
    || c == '\U{85}'
    || c == '\U{a0}'
    || c == '\U{1680}'
    || ('\U{2000}' <= c <= '\U{200a}')
    || c == '\U{2028}'
    || c == '\U{2029}'
    || c == '\U{202f}'
    || c == '\U{205f}'
    || c == '\U{3000}'
  }

  predicate AllSpace(s: string) {
    forall i :: 0 <= i < |s| ==> IsSpace(s[i])
  }

  /** Every character of `s` at a position in [lo, hi) is whitespace. */
  predicate SpaceBetween(s: string, lo: int, hi: int) {
    forall i :: lo <= i < hi && 0 <= i < |s| ==> IsSpace(s[i])
  }

  /** Neither end of `s` is whitespace: what `strip()` leaves behind. */
  predicate Trimmed(s: string) {
    s == [] || (!IsSpace(s[0]) && !IsSpace(s[|s| - 1]))
  }

  /** The length of the whitespace run that `s` starts with. */
  function LeadingSpace(s: string): (n: nat)
    ensures n <= |s| && SpaceBetween(s, 0, n)
    ensures n < |s| ==> !IsSpace(s[n])
  {
    if s != [] && IsSpace(s[0]) then
      var n := 1 + LeadingSpace(s[1..]);
      assert forall i :: 1 <= i < |s| ==> s[i] == s[1..][i - 1];
      n
    else
      0
  }

  /** The position just past the last non-whitespace character of `s` (0 if none). */
  function ContentEnd(s: string): (n: nat)
    ensures n <= |s| && SpaceBetween(s, n, |s|)
    ensures n > 0 ==> !IsSpace(s[n - 1])
  {
    if s != [] && IsSpace(s[|s| - 1]) then
      var n := ContentEnd(s[..|s| - 1]);
      assert forall i :: 0 <= i < |s| - 1 ==> s[i] == s[..|s| - 1][i];
      n
    else
      |s|
  }

  /**
   * Python's `s.strip()`: the middle of `s` once the whitespace runs at both
   * ends are cut away.
   */
  function Strip(s: string): (r: string)
    ensures Trimmed(r)
    ensures r == [] <==> AllSpace(s)
    ensures LeadingSpace(s) + |r| <= |s| && r == s[LeadingSpace(s)..LeadingSpace(s) + |r|]
    ensures SpaceBetween(s, 0, LeadingSpace(s)) && SpaceBetween(s, LeadingSpace(s) + |r|, |s|)
  {
    var a := LeadingSpace(s);
    var b := ContentEnd(s);
    if a < b then
      s[a..b]
    else
      []
  }

  /**
   * `strip()` is determined by its characterisation: whatever trimmed text sits
   * between two whitespace runs is exactly what `strip()` returns.
   */
  lemma StripPadded(w1: string, t: string, w2: string)
    requires AllSpace(w1) && AllSpace(w2) && Trimmed(t)
    ensures Strip(w1 + t + w2) == t
  {
    var s := w1 + t + w2;
    assert forall i :: 0 <= i < |w1| ==> s[i] == w1[i];
    assert forall i :: 0 <= i < |t| ==> s[|w1| + i] == t[i];
    assert forall i :: 0 <= i < |w2| ==> s[|w1| + |t| + i] == w2[i];
    if t == [] {
      assert AllSpace(s);
    } else {
      assert LeadingSpace(s) == |w1|;
      assert ContentEnd(s) == |w1| + |t|;
      assert s[|w1|..|w1| + |t|] == t;
    }
  }

  /** Stripping twice changes nothing further. */
  lemma StripIdempotent(s: string)
    ensures Strip(Strip(s)) == Strip(s)
  {
    var r := Strip(s);
    assert [] + r + [] == r;
    StripPadded([], r, []);
  }

  /** ASCII lower-casing of one character. */
  function LowerChar(c: char): char {
    if 'A' <= c <= 'Z' then (c as int + 32) as char else c
  }

  /**
   * `s.lower()` restricted to the ASCII letters: no capital is left, each
   * capital becomes its small letter and every other character stays.
   */
  function Lower(s: string): (r: string)
    ensures |r| == |s|
    ensures forall i :: 0 <= i < |r| ==> !('A' <= r[i] <= 'Z')
    ensures forall i :: 0 <= i < |s| && !('A' <= s[i] <= 'Z') ==> r[i] == s[i]
    ensures forall i :: 0 <= i < |s| && 'A' <= s[i] <= 'Z' ==> 'a' <= r[i] <= 'z' && r[i] as int - s[i] as int == 32
  {
    seq(|s|, i requires 0 <= i < |s| => LowerChar(s[i]))
  }

  lemma LowerCharAt(s: string, i: nat)
    requires i < |s|
    ensures Lower(s)[i] == LowerChar(s[i])
  {
  }

  /** Lower-casing twice changes nothing further. */
  lemma LowerIdempotent(s: string)
    ensures Lower(Lower(s)) == Lower(s)
  {
    var r := Lower(s);
    assert forall i :: 0 <= i < |r| ==> Lower(r)[i] == r[i];
  }

  /** Python's `a <= b` on strings: lexicographic by code point, a prefix first. */
  predicate LessEq(a: string, b: string) {
    a == [] || (b != [] && (a[0] < b[0] || (a[0] == b[0] && LessEq(a[1..], b[1..]))))
  }

  lemma {:induction false} LessEqReflexive(a: string)
    ensures LessEq(a, a)
  {
    if a != [] {
      LessEqReflexive(a[1..]);
    }
  }

  lemma {:induction false} LessEqTotal(a: string, b: string)
    ensures LessEq(a, b) || LessEq(b, a)
  {
    if a != [] && b != [] && a[0] == b[0] {
      LessEqTotal(a[1..], b[1..]);
    }
  }

  lemma {:induction false} LessEqAntisymmetric(a: string, b: string)
    requires LessEq(a, b) && LessEq(b, a)
    ensures a == b
  {
    if a != [] && b != [] {
      LessEqAntisymmetric(a[1..], b[1..]);
      assert a == [a[0]] + a[1..];
      assert b == [b[0]] + b[1..];
    }
  }

  lemma {:induction false} LessEqTransitive(a: string, b: string, c: string)
    requires LessEq(a, b) && LessEq(b, c)
    ensures LessEq(a, c)
  {
    if a != [] && b != [] && c != [] && a[0] == b[0] && b[0] == c[0] {
      LessEqTransitive(a[1..], b[1..], c[1..]);
    }
  }

  predicate IsDigit(c: char) {
    '0' <= c <= '9'
  }

  predicate AllDigits(s: string) {
    forall i :: 0 <= i < |s| ==> IsDigit(s[i])
  }

  function DigitChar(d: nat): (c: char)
    requires d < 10
    ensures IsDigit(c)
  {
    ('0' as int + d) as char
  }

  /** The decimal digits of `n`, as `f"{n}"` writes it. */
  function NatToString(n: nat): string {
    if n < 10 then [DigitChar(n)] else NatToString(n / 10) + [DigitChar(n % 10)]
  }

  /** The number a string of decimal digits denotes. */
  function ParseDigits(s: string): nat
    requires AllDigits(s)
  {
    if s == [] then 0 else ParseDigits(s[..|s| - 1]) * 10 + (s[|s| - 1] as int - '0' as int)
  }

  /** The rendering of `n` is a non-empty string of digits that reads back as `n`. */
  lemma {:induction false} NatToStringParses(n: nat)
    ensures NatToString(n) != [] && AllDigits(NatToString(n))
    ensures ParseDigits(NatToString(n)) == n
    decreases n
  {
    if n >= 10 {
      NatToStringParses(n / 10);
      var r := NatToString(n);
      assert r[..|r| - 1] == NatToString(n / 10);
    }
  }

  /** Distinct counters render to distinct strings. */
  lemma NatToStringInjective(m: nat, n: nat)
    requires NatToString(m) == NatToString(n)
    ensures m == n
  {
    NatToStringParses(m);
    NatToStringParses(n);
  }
}

=== FILE: upload.dfy ===
/**
 * The two pure checks of the upload handler: whether an uploaded file name is
 * accepted as an archive, and which title the notebook gets.
 */
module Upload {
  import opened Wrappers
  import opened Text

  /** The accepted upload extensions, compared after lower-casing. */
  const AllowedExtensions: set<string> := {"zip"}

  /** The title used when the form supplies none, or only whitespace. */
  const DefaultTitle: string := "My Notebook"

  /** The position of the last '.' in `s`: where `s.rsplit('.', 1)` cuts. */
  function LastDot(s: string): (r: Option<nat>)
    ensures r.None? <==> '.' !in s
    ensures r.Some? ==> r.value < |s| && s[r.value] == '.' && '.' !in s[r.value + 1..]
  {
    if s == [] then
      None
    else if s[|s| - 1] == '.' then
      Some(|s| - 1)
    else
      var r := LastDot(s[..|s| - 1]);
      assert s == s[..|s| - 1] + [s[|s| - 1]];
      if r.Some? then
        assert s[r.value + 1..] == s[..|s| - 1][r.value + 1..] + [s[|s| - 1]];
        r
      else
        r
  }

  /** `s.rsplit('.', 1)[1]`: the text after the last '.'. */
  function Extension(s: string): (ext: string)
    requires '.' in s
    ensures |ext| < |s| && ext == s[|s| - |ext|..]
    ensures s[|s| - |ext| - 1] == '.' && '.' !in ext
  {
    s[LastDot(s).value + 1..]
  }

  /** `s` ends in ".zip", each letter in either case. */
  predicate EndsInZip(s: string) {
    var n := |s|;
    && n >= 4
    && s[n - 4] == '.'
    && s[n - 3] in "zZ"
    && s[n - 2] in "iI"
    && s[n - 1] in "pP"
  }

  /**
   * `allowed_file`: the name contains a '.' and what follows the last '.',
   * lower-cased, is an allowed extension. Equivalently, the name ends in
   * ".zip" in any mix of letter cases.
   */
  function AllowedFile(filename: string): (ok: bool)
    ensures ok <==> EndsInZip(filename)
  {
    ExtensionCheckMeansZipSuffix(filename);
    '.' in filename && Lower(Extension(filename)) in AllowedExtensions
  }

  lemma ExtensionCheckMeansZipSuffix(s: string)
    ensures ('.' in s && Lower(Extension(s)) in AllowedExtensions) <==> EndsInZip(s)
  {
    if '.' in s && Lower(Extension(s)) in AllowedExtensions {
      ZipExtensionEnds(s);
    }
    if EndsInZip(s) {
      ZipSuffixExtension(s);
      LowerIsZip(s[|s| - 3..]);
    }
  }

  lemma ZipExtensionEnds(s: string)
    requires '.' in s && Lower(Extension(s)) == "zip"
    ensures EndsInZip(s)
  {
    var n := |s|;
    var ext := Extension(s);
    LowerIsZip(ext);
    assert s[n - 3] == ext[0] && s[n - 2] == ext[1] && s[n - 1] == ext[2];
  }

  /** A name ending in ".zip" has its last dot four characters from the end. */
  lemma ZipSuffixExtension(s: string)
    requires EndsInZip(s)
    ensures '.' in s && Extension(s) == s[|s| - 3..]
  {
    var n := |s|;
    assert s[n - 4] == '.';
    var ext := s[n - 3..];
    forall i | 0 <= i < |ext| ensures ext[i] != '.' {
      assert ext[i] == s[n - 3 + i];
    }
    assert LastDot(s) == Some(n - 4);
  }

  /** The strings that lower-case to "zip": each of its three letters in either case. */
  lemma LowerIsZip(ext: string)
    ensures Lower(ext) == "zip" <==> |ext| == 3 && ext[0] in "zZ" && ext[1] in "iI" && ext[2] in "pP"
  {
    var r := Lower(ext);
    if |ext| == 3 {
      LowerCharAt(ext, 0);
      LowerCharAt(ext, 1);
      LowerCharAt(ext, 2);
      if ext[0] in "zZ" && ext[1] in "iI" && ext[2] in "pP" {
        assert r == [r[0], r[1], r[2]];
      }
    }
  }

  /** Names the extension check accepts: the case of the extension does not matter, and the stem may be empty. */
  lemma AcceptedNames()
    ensures AllowedFile("A.ZIP") && AllowedFile(".zip")
  {
    assert EndsInZip("A.ZIP") && EndsInZip(".zip");
  }

  /** Names it refuses: no '.' at all, or something after the ".zip". */
  lemma RefusedNames()
    ensures !AllowedFile("zip") && !AllowedFile("a.zip.txt")
  {
    assert !EndsInZip("zip") && !EndsInZip("a.zip.txt");
  }

  /**
   * The title handed to the notebook: the form's `title` field (empty when the
   * field is missing) with surrounding whitespace stripped, or the default
   * title when nothing is left.
   */
  function NotebookTitle(field: Option<string>): (title: string)
    ensures title != [] && Trimmed(title)
    ensures AllSpace(field.GetOr("")) ==> title == DefaultTitle
    ensures !AllSpace(field.GetOr("")) ==> title == Strip(field.GetOr(""))
  {
    var t := Strip(field.GetOr(""));
    if t == [] then DefaultTitle else t
  }

  /** Any whitespace around a non-empty trimmed title is dropped and the title kept as typed. */
  lemma NotebookTitleKeepsTypedTitle(w1: string, t: string, w2: string)
    requires AllSpace(w1) && AllSpace(w2) && Trimmed(t) && t != []
    ensures NotebookTitle(Some(w1 + t + w2)) == t
  {
    StripPadded(w1, t, w2);
  }
}

=== FILE: walker.dfy ===
/**
 * The directory walk of the notebook generator: every directory of the
 * extracted archive becomes a chapter keyed by its relative path, the first
 * reserved description file present supplies the chapter's description, and
 * every other file is appended to the chapter in name order.
 *
 * The walk itself is an input: a sequence of directory records in the order
 * the file-system walk visits them, each carrying the files directly inside
 * it and what reading each of them yields.
 */
module Walker {
  import opened Wrappers
  import opened Text
  import opened Sorting

  /**
   * A file as the walk lists it: its base name and the text reading it
   * yields, or None when opening or reading it raises.
   */
  datatype FileRef = FileRef(name: string, text: Option<string>)

  /**
   * One directory of the walk: its path relative to the archive root ("." for
   * the root itself) and the files directly inside it, in listing order.
   */
  datatype DirRecord = DirRecord(relPath: string, files: seq<FileRef>)

  /** A chapter: its key and the files appended to it, in order. */
  datatype Chapter = Chapter(name: string, files: seq<FileRef>)

  /**
   * What the walk builds: the chapter map, kept as a list in insertion order
   * with one entry per key, and the description of each chapter that has one.
   */
  datatype Tree = Tree(chapters: seq<Chapter>, descriptions: map<string, string>)

  /** The chosen description file of a directory could not be read. */
  datatype WalkError = UnreadableDescription(chapter: string, file: string)

  /** The reserved description file names, in priority order. */
  const DescriptionFiles: seq<string> := ["README.md", "README.txt", "description.txt"]

  /** The key of the chapter for the archive root. */
  const RootChapter: string := "Root"

  function NameOf(f: FileRef): string {
    f.name
  }

  /** The chapter key of a directory: "Root" for ".", otherwise the path with every '\' turned into '/'. */
  function ChapterKey(relPath: string): (key: string)
    ensures '\\' !in key
    ensures relPath == "." ==> key == RootChapter
    ensures relPath != "." ==> |key| == |relPath|
    ensures relPath != "." ==> forall i :: 0 <= i < |relPath| ==>
      key[i] == (if relPath[i] == '\\' then '/' else relPath[i])
  {
    if relPath == "." then
      RootChapter
    else
      seq(|relPath|, i requires 0 <= i < |relPath| => if relPath[i] == '\\' then '/' else relPath[i])
  }

  /**
   * On paths without '\' two directories share a chapter exactly when their
   * paths are equal or one is the root and the other is a folder named "Root".
   */
  lemma ChapterKeysCollide(p: string, q: string)
    requires '\\' !in p && '\\' !in q
    ensures ChapterKey(p) == ChapterKey(q) <==> p == q || (p == "." && q == RootChapter) || (p == RootChapter && q == ".")
  {
    if p != "." {
      assert ChapterKey(p) == p;
    }
    if q != "." {
      assert ChapterKey(q) == q;
    }
  }

  /** Some file of the listing has name `n`: `os.path.exists` on that name. */
  predicate HasFile(files: seq<FileRef>, n: string) {
    exists i :: 0 <= i < |files| && files[i].name == n
  }

  /** The first listed file named `n`, if any. */
  function Lookup(files: seq<FileRef>, n: string): (r: Option<FileRef>)
    ensures r.None? <==> !HasFile(files, n)
    ensures r.Some? ==> r.value in files && r.value.name == n
  {
    if files == [] then
      None
    else if files[0].name == n then
      Some(files[0])
    else
      var r := Lookup(files[1..], n);
      assert forall i :: 1 <= i < |files| ==> files[i] == files[1..][i - 1];
      r
  }

  /** The index of the first candidate name that exists in the listing. */
  function FirstPresent(files: seq<FileRef>, candidates: seq<string>): (r: Option<nat>)
    ensures r.None? <==> forall j :: 0 <= j < |candidates| ==> !HasFile(files, candidates[j])
    ensures r.Some? ==> r.value < |candidates| && HasFile(files, candidates[r.value])
    ensures r.Some? ==> forall j :: 0 <= j < r.value ==> !HasFile(files, candidates[j])
  {
    if candidates == [] then
      None
    else if HasFile(files, candidates[0]) then
      Some(0)
    else
      match FirstPresent(files, candidates[1..])
      case None => None
      case Some(k) => Some(k + 1)
  }

  /**
   * The description file of a directory: the file bearing the first reserved
   * name that exists there; later candidates are not consulted.
   */
  function FindDescription(files: seq<FileRef>): (r: Option<FileRef>)
    ensures r.None? <==> forall j :: 0 <= j < |DescriptionFiles| ==> !HasFile(files, DescriptionFiles[j])
    ensures r.Some? ==> r.value in files
    ensures r.Some? ==> exists k :: 0 <= k < |DescriptionFiles| && r.value.name == DescriptionFiles[k]
                             && (forall j :: 0 <= j < k ==> !HasFile(files, DescriptionFiles[j]))
  {
    match FirstPresent(files, DescriptionFiles)
    case None => None
    case Some(k) => Lookup(files, DescriptionFiles[k])
  }

  /** A file that may appear in a chapter: it does not bear a reserved name. */
  predicate Listable(f: FileRef) {
    f.name !in DescriptionFiles
  }

  /** The listable files of `s`, in their order. */
  function KeepListable(s: seq<FileRef>): (r: seq<FileRef>)
    ensures forall f :: f in r ==> Listable(f)
    ensures forall f :: multiset(r)[f] == if Listable(f) then multiset(s)[f] else 0
  {
    if s == [] then
      []
    else
      var rest := KeepListable(s[1..]);
      assert s == [s[0]] + s[1..];
      if Listable(s[0]) then [s[0]] + rest else rest
  }

  /** Dropping files keeps the remaining ones in order. */
  lemma {:induction false} KeepListableSorted(s: seq<FileRef>)
    requires SortedBy(s, NameOf)
    ensures SortedBy(KeepListable(s), NameOf)
  {
    if s != [] {
      var rest := KeepListable(s[1..]);
      assert s == [s[0]] + s[1..];
      KeepListableSorted(s[1..]);
      if Listable(s[0]) {
        forall z | z in multiset(rest) ensures LessEq(NameOf(s[0]), NameOf(z)) {
          assert z in multiset(s[1..]);
          var m :| 0 <= m < |s[1..]| && s[1..][m] == z;
          assert s[m + 1] == z;
        }
        FrontStaysSorted(s[0], rest, NameOf);
      }
    }
  }

  /**
   * The files one directory contributes to its chapter: its listing sorted
   * by name with the reserved names dropped, each other file kept as often as
   * it is listed.
   */
  function Listing(d: DirRecord): (r: seq<FileRef>)
    ensures SortedBy(r, NameOf)
    ensures forall f :: f in r ==> Listable(f)
    ensures forall f :: multiset(r)[f] == if Listable(f) then multiset(d.files)[f] else 0
  {
    KeepListableSorted(Sort(d.files, NameOf));
    KeepListable(Sort(d.files, NameOf))
  }

  predicate HasChapter(chs: seq<Chapter>, key: string) {
    exists i :: 0 <= i < |chs| && chs[i].name == key
  }

  predicate DistinctNames(chs: seq<Chapter>) {
    forall i, j :: 0 <= i < j < |chs| ==> chs[i].name != chs[j].name
  }

  /** `folder_map.setdefault(key, [])`: a new key is appended with no files. */
  function SetDefault(chs: seq<Chapter>, key: string): (r: seq<Chapter>)
    ensures HasChapter(r, key)
    ensures forall c :: HasChapter(r, c) <==> HasChapter(chs, c) || c == key
    ensures DistinctNames(chs) ==> DistinctNames(r)
    ensures |chs| <= |r| && forall i :: 0 <= i < |chs| ==> r[i] == chs[i]
    ensures |r| == |chs| <==> HasChapter(chs, key)
    ensures |r| != |chs| ==> r == chs + [Chapter(key, [])]
  {
    if HasChapter(chs, key) then
      chs
    else
      var r := chs + [Chapter(key, [])];
      assert r[|chs|].name == key;
      assert forall i :: 0 <= i < |chs| ==> r[i] == chs[i];
      r
  }

  /** `folder_map[key].extend(fs)` on the chapter named `key`. */
  function AppendFiles(chs: seq<Chapter>, key: string, fs: seq<FileRef>): (r: seq<Chapter>)
    ensures |r| == |chs|
    ensures forall i :: 0 <= i < |chs| ==> r[i].name == chs[i].name
    ensures forall i :: 0 <= i < |chs| ==>
      r[i].files == if chs[i].name == key then chs[i].files + fs else chs[i].files
  {
    seq(|chs|, i requires 0 <= i < |chs| =>
      if chs[i].name == key then Chapter(key, chs[i].files + fs) else chs[i])
  }

  /** The files of all chapters, chapter after chapter. */
  function AllFiles(chs: seq<Chapter>): seq<FileRef> {
    if chs == [] then [] else chs[0].files + AllFiles(chs[1..])
  }

  /** Appending under a key keeps the chapter names, so distinct names stay distinct. */
  lemma AppendFilesNames(chs: seq<Chapter>, key: string, fs: seq<FileRef>)
    ensures DistinctNames(chs) ==> DistinctNames(AppendFiles(chs, key, fs))
    ensures forall c :: HasChapter(AppendFiles(chs, key, fs), c) <==> HasChapter(chs, c)
  {
    var r := AppendFiles(chs, key, fs);
    forall c | HasChapter(r, c) ensures HasChapter(chs, c) {
      var i :| 0 <= i < |r| && r[i].name == c;
      assert chs[i].name == c;
    }
    forall c | HasChapter(chs, c) ensures HasChapter(r, c) {
      var i :| 0 <= i < |chs| && chs[i].name == c;
      assert r[i].name == c;
    }
  }

  /**
   * With distinct chapter names, the files of all chapters grow by exactly
   * `fs` when a chapter has the key and by nothing otherwise.
   */
  lemma {:induction false} AppendFilesGrows(chs: seq<Chapter>, key: string, fs: seq<FileRef>)
    requires DistinctNames(chs)
    ensures multiset(AllFiles(AppendFiles(chs, key, fs)))
      == multiset(AllFiles(chs)) + (if HasChapter(chs, key) then multiset(fs) else multiset{})
    decreases |chs|
  {
    if chs != [] {
      var r := AppendFiles(chs, key, fs);
      var tail := chs[1..];
      AppendTail(chs, key, fs);
      DistinctTail(chs);
      AppendFilesGrows(tail, key, fs);
      assert AllFiles(r) == r[0].files + AllFiles(AppendFiles(tail, key, fs));
      assert AllFiles(chs) == chs[0].files + AllFiles(tail);
      if chs[0].name == key {
        FreshTail(chs);
        assert r[0].files == chs[0].files + fs;
        assert HasChapter(chs, key);
      } else {
        HasChapterTail(chs, key);
        assert r[0] == chs[0];
      }
    }
  }

  lemma HasChapterTail(chs: seq<Chapter>, key: string)
    requires chs != [] && chs[0].name != key
    ensures HasChapter(chs, key) <==> HasChapter(chs[1..], key)
  {
    if HasChapter(chs, key) {
      var i :| 0 <= i < |chs| && chs[i].name == key;
      assert chs[1..][i - 1].name == key;
    }
    if HasChapter(chs[1..], key) {
      var i :| 0 <= i < |chs[1..]| && chs[1..][i].name == key;
      assert chs[i + 1].name == key;
    }
  }

  lemma AppendTail(chs: seq<Chapter>, key: string, fs: seq<FileRef>)
    requires chs != []
    ensures AppendFiles(chs, key, fs)[1..] == AppendFiles(chs[1..], key, fs)
  {
    var r := AppendFiles(chs, key, fs);
    var q := AppendFiles(chs[1..], key, fs);
    assert forall i :: 0 <= i < |q| ==> r[1..][i] == q[i] by {
      forall i | 0 <= i < |q| ensures r[1..][i] == q[i] {
        assert chs[1..][i] == chs[i + 1];
      }
    }
  }

  lemma DistinctTail(chs: seq<Chapter>)
    requires chs != [] && DistinctNames(chs)
    ensures DistinctNames(chs[1..])
  {
    forall i, j | 0 <= i < j < |chs| - 1 ensures chs[1..][i].name != chs[1..][j].name {
      assert chs[1..][i] == chs[i + 1] && chs[1..][j] == chs[j + 1];
    }
  }

  /** With distinct names, the key of the first chapter occurs in no later one. */
  lemma FreshTail(chs: seq<Chapter>)
    requires chs != [] && DistinctNames(chs)
    ensures !HasChapter(chs[1..], chs[0].name)
  {
    forall i | 0 <= i < |chs[1..]| ensures chs[1..][i].name != chs[0].name {
      assert chs[1..][i] == chs[i + 1];
    }
  }

  /** The reading of the chosen description file raises: some reserved file of the directory cannot be read. */
  predicate BadDescription(d: DirRecord) {
    var desc := FindDescription(d.files);
    desc.Some? && desc.value.text.None?
  }

  /**
   * A directory is bad only through an unreadable reserved file, and one whose
   * reserved files can all be read is never bad.
   */
  lemma BadDescriptionMeans(d: DirRecord)
    ensures BadDescription(d) ==> exists f :: f in d.files && f.name in DescriptionFiles && f.text.None?
    ensures (forall f :: f in d.files && f.name in DescriptionFiles ==> f.text.Some?) ==> !BadDescription(d)
  {
    var desc := FindDescription(d.files);
    if desc.Some? {
      assert desc.value in d.files && desc.value.name in DescriptionFiles;
    }
  }

  /**
   * `folder_descriptions` after directory `d` with key `key` has been
   * visited: only the entry for `key` may change, it is present afterwards
   * exactly when it was before or the directory has a description file, and
   * a new text has no surrounding whitespace.
   */
  function Describe(descs: map<string, string>, key: string, d: DirRecord): map<string, string>
    requires !BadDescription(d)
  {
    var desc := FindDescription(d.files);
    if desc.Some? then descs[key := Strip(desc.value.text.value)] else descs
  }

  /**
   * Visiting a directory changes no description but its own chapter's, which
   * is present afterwards exactly when it was before or the directory has a
   * description file; a new text has no surrounding whitespace.
   */
  lemma DescribeFrame(descs: map<string, string>, key: string, d: DirRecord)
    requires !BadDescription(d)
    ensures forall k :: k in descs ==> k in Describe(descs, key, d)
    ensures forall k :: k in Describe(descs, key, d) && k != key ==> k in descs && Describe(descs, key, d)[k] == descs[k]
    ensures key in Describe(descs, key, d) <==> key in descs || FindDescription(d.files).Some?
    ensures FindDescription(d.files).Some? ==> Trimmed(Describe(descs, key, d)[key])
  {
  }

  /**
   * One iteration of the walk loop for directory `d`. It fails exactly when
   * the chosen description file cannot be read, naming the directory's
   * chapter; otherwise the chapter of `d` exists afterwards, no other chapter
   * appears, distinct names stay distinct and every described chapter is a
   * chapter.
   */
  function Visit(t: Tree, d: DirRecord): (r: Result<Tree, WalkError>)
    ensures r.Failure? <==> BadDescription(d)
    ensures r.Failure? ==> r.error.chapter == ChapterKey(d.relPath) && r.error.file in DescriptionFiles
    ensures r.Success? ==> forall c :: HasChapter(r.value.chapters, c) <==> HasChapter(t.chapters, c) || c == ChapterKey(d.relPath)
    ensures r.Success? && DistinctNames(t.chapters) ==> DistinctNames(r.value.chapters)
    ensures r.Success? && (forall c :: c in t.descriptions ==> HasChapter(t.chapters, c)) ==>
      forall c :: c in r.value.descriptions ==> HasChapter(r.value.chapters, c)
  {
    var key := ChapterKey(d.relPath);
    if BadDescription(d) then
      Failure(UnreadableDescription(key, FindDescription(d.files).value.name))
    else
      var chs := SetDefault(t.chapters, key);
      AppendFilesNames(chs, key, Listing(d));
      DescribeFrame(t.descriptions, key, d);
      Success(Tree(AppendFiles(chs, key, Listing(d)), Describe(t.descriptions, key, d)))
  }

  /** A visit adds exactly the directory's listing to the files of distinctly named chapters. */
  lemma VisitKeepsListedFiles(t: Tree, d: DirRecord)
    requires Visit(t, d).Success? && DistinctNames(t.chapters)
    ensures multiset(AllFiles(Visit(t, d).value.chapters)) == multiset(AllFiles(t.chapters)) + multiset(Listing(d))
  {
    SetDefaultThenAppend(t.chapters, ChapterKey(d.relPath), Listing(d));
  }

  /** `setdefault` then `extend` on distinctly named chapters adds exactly the new files. */
  lemma SetDefaultThenAppend(chs: seq<Chapter>, key: string, fs: seq<FileRef>)
    ensures DistinctNames(chs) ==>
      multiset(AllFiles(AppendFiles(SetDefault(chs, key), key, fs))) == multiset(AllFiles(chs)) + multiset(fs)
  {
    if DistinctNames(chs) {
      SetDefaultFiles(chs, key);
      AppendFilesGrows(SetDefault(chs, key), key, fs);
    }
  }

  /** A new empty chapter adds no file. */
  lemma SetDefaultFiles(chs: seq<Chapter>, key: string)
    ensures AllFiles(SetDefault(chs, key)) == AllFiles(chs)
  {
    if !HasChapter(chs, key) {
      AllFilesSnoc(chs, Chapter(key, []));
    }
  }

  lemma {:induction false} AllFilesSnoc(chs: seq<Chapter>, ch: Chapter)
    ensures AllFiles(chs + [ch]) == AllFiles(chs) + ch.files
    decreases |chs|
  {
    if chs == [] {
      assert [] + [ch] == [ch];
      assert AllFiles([ch]) == ch.files + AllFiles([]);
    } else {
      assert (chs + [ch])[1..] == chs[1..] + [ch];
      AllFilesSnoc(chs[1..], ch);
    }
  }

  /** The listings of all walked directories, in walk order. */
  function AllListings(dirs: seq<DirRecord>): seq<FileRef>
    decreases |dirs|
  {
    if dirs == [] then [] else AllListings(dirs[..|dirs| - 1]) + Listing(dirs[|dirs| - 1])
  }

  /**
   * The whole walk: the directories visited in the given order, stopping at
   * the first failure. A finished walk has distinct chapter names, every
   * chapter with a description is one of its chapters.
   */
  function Walk(dirs: seq<DirRecord>): (r: Result<Tree, WalkError>)
    ensures r.Success? ==> DistinctNames(r.value.chapters)
    ensures r.Success? ==> forall c :: c in r.value.descriptions ==> HasChapter(r.value.chapters, c)
    decreases |dirs|
  {
    if dirs == [] then
      Success(Tree([], map[]))
    else
      match Walk(dirs[..|dirs| - 1])
      case Failure(e) => Failure(e)
      case Success(t) => Visit(t, dirs[|dirs| - 1])
  }

  /** The chapters of a finished walk hold together exactly the files the directories list, none lost or repeated. */
  lemma {:induction false} WalkKeepsListedFiles(dirs: seq<DirRecord>)
    requires Walk(dirs).Success?
    ensures multiset(AllFiles(Walk(dirs).value.chapters)) == multiset(AllListings(dirs))
    decreases |dirs|
  {
    if dirs != [] {
      var pre := dirs[..|dirs| - 1];
      WalkStep(dirs);
      WalkKeepsListedFiles(pre);
      VisitKeepsListedFiles(Walk(pre).value, dirs[|dirs| - 1]);
    }
  }

  // Reference definitions the walk is proved against.

  /** Some visited directory has chapter key `c`. */
  predicate Visited(dirs: seq<DirRecord>, c: string) {
    exists i :: 0 <= i < |dirs| && ChapterKey(dirs[i].relPath) == c
  }

  /** The listings of all directories keyed `c`, concatenated in walk order. */
  function Gather(dirs: seq<DirRecord>, c: string): seq<FileRef>
    decreases |dirs|
  {
    if dirs == [] then
      []
    else
      var d := dirs[|dirs| - 1];
      Gather(dirs[..|dirs| - 1], c) + (if ChapterKey(d.relPath) == c then Listing(d) else [])
  }

  /** The description file of the last directory keyed `c` that has one. */
  function LastDescription(dirs: seq<DirRecord>, c: string): Option<FileRef>
    decreases |dirs|
  {
    if dirs == [] then
      None
    else
      var d := dirs[|dirs| - 1];
      if ChapterKey(d.relPath) == c && FindDescription(d.files).Some? then
        FindDescription(d.files)
      else
        LastDescription(dirs[..|dirs| - 1], c)
  }

  lemma VisitedSnoc(dirs: seq<DirRecord>, c: string)
    requires dirs != []
    ensures Visited(dirs, c) <==> Visited(dirs[..|dirs| - 1], c) || ChapterKey(dirs[|dirs| - 1].relPath) == c
  {
    var pre := dirs[..|dirs| - 1];
    assert forall i :: 0 <= i < |pre| ==> pre[i] == dirs[i];
  }

  lemma {:induction false} GatherUnvisited(dirs: seq<DirRecord>, c: string)
    requires !Visited(dirs, c)
    ensures Gather(dirs, c) == []
    decreases |dirs|
  {
    if dirs != [] {
      VisitedSnoc(dirs, c);
      GatherUnvisited(dirs[..|dirs| - 1], c);
    }
  }

  /** Some visited directory has a chosen description file that cannot be read. */
  predicate AnyBad(dirs: seq<DirRecord>) {
    exists i :: 0 <= i < |dirs| && BadDescription(dirs[i])
  }

  lemma BadSnoc(dirs: seq<DirRecord>)
    requires dirs != []
    ensures AnyBad(dirs) <==> AnyBad(dirs[..|dirs| - 1]) || BadDescription(dirs[|dirs| - 1])
  {
    var pre := dirs[..|dirs| - 1];
    assert forall i :: 0 <= i < |pre| ==> pre[i] == dirs[i];
  }

  lemma WalkStepFails(dirs: seq<DirRecord>)
    requires dirs != []
    ensures Walk(dirs).Failure? <==> Walk(dirs[..|dirs| - 1]).Failure? || BadDescription(dirs[|dirs| - 1])
  {
  }

  /** The walk fails exactly when some directory's chosen description file cannot be read. */
  lemma {:induction false} WalkFailsIff(dirs: seq<DirRecord>)
    ensures Walk(dirs).Failure? <==> AnyBad(dirs)
    decreases |dirs|
  {
    if dirs != [] {
      WalkFailsIff(dirs[..|dirs| - 1]);
      WalkStepFails(dirs);
      BadSnoc(dirs);
    }
  }

  /**
   * Directory `i` is the first whose chosen description file cannot be read,
   * and `e` names its chapter key and that file.
   */
  predicate FirstBadAt(dirs: seq<DirRecord>, i: int, e: WalkError) {
    0 <= i < |dirs| && BadDescription(dirs[i]) && !AnyBad(dirs[..i])
    && e == UnreadableDescription(ChapterKey(dirs[i].relPath), FindDescription(dirs[i].files).value.name)
  }

  lemma WalkStep(dirs: seq<DirRecord>)
    requires dirs != []
    ensures Walk(dirs[..|dirs| - 1]).Failure? ==> Walk(dirs) == Walk(dirs[..|dirs| - 1])
    ensures Walk(dirs[..|dirs| - 1]).Success? ==> Walk(dirs) == Visit(Walk(dirs[..|dirs| - 1]).value, dirs[|dirs| - 1])
  {
  }

  /** Walking one more directory after a successful walk visits it. */
  lemma WalkSnoc(pre: seq<DirRecord>, d: DirRecord)
    requires Walk(pre).Success?
    ensures Walk(pre + [d]) == Visit(Walk(pre).value, d)
  {
    var dirs := pre + [d];
    assert dirs[..|dirs| - 1] == pre && dirs[|dirs| - 1] == d;
    WalkStep(dirs);
  }

  /** A directory found first bad stays first bad when more directories follow. */
  lemma FirstBadExtends(dirs: seq<DirRecord>, i: int, e: WalkError)
    requires dirs != [] && FirstBadAt(dirs[..|dirs| - 1], i, e)
    ensures FirstBadAt(dirs, i, e)
  {
    var pre := dirs[..|dirs| - 1];
    var d := dirs[i];
    assert pre[i] == d;
    forall j | 0 <= j < i ensures !BadDescription(dirs[..i][j]) {
      assert dirs[..i][j] == pre[..i][j];
    }
    assert BadDescription(d) && e == UnreadableDescription(ChapterKey(d.relPath), FindDescription(d.files).value.name);
  }

  /** When the walk of all but the last directory succeeds, a failure is the last directory's. */
  lemma FirstBadIsLast(dirs: seq<DirRecord>)
    requires dirs != [] && Walk(dirs[..|dirs| - 1]).Success? && Walk(dirs).Failure?
    ensures FirstBadAt(dirs, |dirs| - 1, Walk(dirs).error)
  {
    WalkStep(dirs);
    WalkFailsIff(dirs[..|dirs| - 1]);
  }

  /** A failed walk reports the chapter and file name of the first directory whose description cannot be read. */
  lemma {:induction false} WalkFailureIsFirst(dirs: seq<DirRecord>)
    requires Walk(dirs).Failure?
    ensures exists i :: FirstBadAt(dirs, i, Walk(dirs).error)
    decreases |dirs|
  {
    var pre := dirs[..|dirs| - 1];
    if Walk(pre).Failure? {
      WalkStep(dirs);
      WalkFailureIsFirst(pre);
      var i :| FirstBadAt(pre, i, Walk(pre).error);
      FirstBadExtends(dirs, i, Walk(dirs).error);
    } else {
      FirstBadIsLast(dirs);
    }
  }

  /**
   * When no chosen description file is unreadable, the walk succeeds with one
   * chapter per distinct key, covering exactly the visited directories, even
   * those that contribute no file.
   */
  lemma {:induction false} WalkChapterKeys(dirs: seq<DirRecord>)
    requires !AnyBad(dirs)
    ensures Walk(dirs).Success?
    ensures DistinctNames(Walk(dirs).value.chapters)
    ensures forall c :: HasChapter(Walk(dirs).value.chapters, c) <==> Visited(dirs, c)
    decreases |dirs|
  {
    WalkFailsIff(dirs);
    if dirs != [] {
      var pre := dirs[..|dirs| - 1];
      var d := dirs[|dirs| - 1];
      var key := ChapterKey(d.relPath);
      BadSnoc(dirs);
      WalkChapterKeys(pre);
      var t0 := Walk(pre).value;
      var chs := SetDefault(t0.chapters, key);
      var t := Walk(dirs).value;
      assert t.chapters == AppendFiles(chs, key, Listing(d));
      forall c ensures HasChapter(t.chapters, c) <==> Visited(dirs, c) {
        VisitedSnoc(dirs, c);
        if HasChapter(t.chapters, c) {
          var i :| 0 <= i < |t.chapters| && t.chapters[i].name == c;
          assert chs[i].name == c;
        }
        if HasChapter(chs, c) {
          var i :| 0 <= i < |chs| && chs[i].name == c;
          assert t.chapters[i].name == c;
        }
      }
    }
  }

  /**
   * A chapter's files are the listings of every directory with its key,
   * concatenated in walk order; so a folder named "Root" adds its files after
   * or before those of the root, as the walk meets them.
   */
  lemma {:induction false} WalkChapterGather(dirs: seq<DirRecord>)
    requires !AnyBad(dirs)
    ensures Walk(dirs).Success?
    ensures forall i :: 0 <= i < |Walk(dirs).value.chapters| ==>
      Walk(dirs).value.chapters[i].files == Gather(dirs, Walk(dirs).value.chapters[i].name)
    decreases |dirs|
  {
    WalkFailsIff(dirs);
    if dirs != [] {
      var pre := dirs[..|dirs| - 1];
      var d := dirs[|dirs| - 1];
      var key := ChapterKey(d.relPath);
      BadSnoc(dirs);
      WalkChapterGather(pre);
      WalkChapterKeys(pre);
      var t0 := Walk(pre).value;
      if !HasChapter(t0.chapters, key) {
        GatherUnvisited(pre, key);
      }
      assert Walk(dirs).value.chapters == AppendFiles(SetDefault(t0.chapters, key), key, Listing(d));
      GatherStep(t0.chapters, dirs);
    }
  }

  /** One visit keeps every chapter's files equal to its gathered listings. */
  lemma GatherStep(chs0: seq<Chapter>, dirs: seq<DirRecord>)
    requires dirs != []
    requires forall i :: 0 <= i < |chs0| ==> chs0[i].files == Gather(dirs[..|dirs| - 1], chs0[i].name)
    requires !HasChapter(chs0, ChapterKey(dirs[|dirs| - 1].relPath)) ==>
      Gather(dirs[..|dirs| - 1], ChapterKey(dirs[|dirs| - 1].relPath)) == []
    ensures var d := dirs[|dirs| - 1];
      var chs := AppendFiles(SetDefault(chs0, ChapterKey(d.relPath)), ChapterKey(d.relPath), Listing(d));
      forall i :: 0 <= i < |chs| ==> chs[i].files == Gather(dirs, chs[i].name)
  {
    var d := dirs[|dirs| - 1];
    var key := ChapterKey(d.relPath);
    var started := SetDefault(chs0, key);
    var chs := AppendFiles(started, key, Listing(d));
    forall i | 0 <= i < |chs| ensures chs[i].files == Gather(dirs, chs[i].name) {
      if i < |chs0| {
        assert started[i] == chs0[i];
      } else {
        assert started[i] == Chapter(key, []);
      }
    }
  }

  /**
   * A chapter has a description exactly when some directory with its key
   * holds a reserved file, and the description is the stripped text of the
   * chosen file of the last such directory: a later one overwrites.
   */
  lemma {:induction false} WalkDescriptionsLast(dirs: seq<DirRecord>)
    requires !AnyBad(dirs)
    ensures Walk(dirs).Success?
    ensures forall c :: c in Walk(dirs).value.descriptions <==> LastDescription(dirs, c).Some?
    ensures forall c :: c in Walk(dirs).value.descriptions ==>
      LastDescription(dirs, c).value.text.Some?
      && Walk(dirs).value.descriptions[c] == Strip(LastDescription(dirs, c).value.text.value)
    decreases |dirs|
  {
    WalkFailsIff(dirs);
    if dirs != [] {
      var pre := dirs[..|dirs| - 1];
      var d := dirs[|dirs| - 1];
      var key := ChapterKey(d.relPath);
      BadSnoc(dirs);
      var t0 := Walk(pre).value;
      WalkDescriptionsLast(pre);
      assert Walk(dirs).value.descriptions == Describe(t0.descriptions, key, d);
      forall c ensures DescriptionMatches(t0.descriptions, pre, c) { }
      DescriptionsStep(t0.descriptions, dirs, pre, d);
      var descs := Walk(dirs).value.descriptions;
      forall c
        ensures c in descs <==> LastDescription(dirs, c).Some?
        ensures c in descs ==> LastDescription(dirs, c).value.text.Some?
                               && descs[c] == Strip(LastDescription(dirs, c).value.text.value)
      {
        assert DescriptionMatches(descs, dirs, c);
      }
    }
  }

  /** The entry of `descs` for chapter `c` is the stripped text of the last chosen file for `c` in `dirs`. */
  predicate DescriptionMatches(descs: map<string, string>, dirs: seq<DirRecord>, c: string) {
    && (c in descs <==> LastDescription(dirs, c).Some?)
    && (c in descs ==> LastDescription(dirs, c).value.text.Some?
                       && descs[c] == Strip(LastDescription(dirs, c).value.text.value))
  }

  /** One visit keeps every description the stripped text of the last chosen file for its key. */
  lemma DescriptionsStep(descs0: map<string, string>, dirs: seq<DirRecord>, pre: seq<DirRecord>, d: DirRecord)
    requires dirs != [] && pre == dirs[..|dirs| - 1] && d == dirs[|dirs| - 1]
    requires !BadDescription(d)
    requires forall c :: DescriptionMatches(descs0, pre, c)
    ensures forall c :: DescriptionMatches(Describe(descs0, ChapterKey(d.relPath), d), dirs, c)
  {
    forall c ensures DescriptionMatches(Describe(descs0, ChapterKey(d.relPath), d), dirs, c) {
      assert DescriptionMatches(descs0, pre, c);
      LastDescriptionStep(dirs, c);
      DescribeAt(descs0, ChapterKey(d.relPath), d, c, LastDescription(pre, c), LastDescription(dirs, c));
    }
  }

  lemma LastDescriptionStep(dirs: seq<DirRecord>, c: string)
    requires dirs != []
    ensures var d := dirs[|dirs| - 1];
      LastDescription(dirs, c) == if ChapterKey(d.relPath) == c && FindDescription(d.files).Some? then
        FindDescription(d.files) else LastDescription(dirs[..|dirs| - 1], c)
  {
  }

  /** Describing a directory for chapter `c`: the entry follows the chosen file `now`, which replaces `prev` when the directory has one. */
  lemma DescribeAt(descs0: map<string, string>, key: string, d: DirRecord, c: string,
                   prev: Option<FileRef>, now: Option<FileRef>)
    requires !BadDescription(d)
    requires now == if key == c && FindDescription(d.files).Some? then FindDescription(d.files) else prev
    requires c in descs0 <==> prev.Some?
    requires c in descs0 ==> prev.value.text.Some? && descs0[c] == Strip(prev.value.text.value)
    ensures c in Describe(descs0, key, d) <==> now.Some?
    ensures c in Describe(descs0, key, d) ==>
      now.value.text.Some? && Describe(descs0, key, d)[c] == Strip(now.value.text.value)
  {
    var desc := FindDescription(d.files);
    var descs := Describe(descs0, key, d);
    if desc.Some? {
      assert descs == descs0[key := Strip(desc.value.text.value)];
    } else {
      assert descs == descs0;
    }
  }

  lemma {:induction false} GatherListable(dirs: seq<DirRecord>, c: string)
    ensures forall f :: f in Gather(dirs, c) ==> Listable(f)
    decreases |dirs|
  {
    if dirs != [] {
      GatherListable(dirs[..|dirs| - 1], c);
    }
  }

  /** No chapter lists a file with a reserved name, whether or not it supplied the description. */
  lemma NoReservedFileListed(dirs: seq<DirRecord>)
    requires !AnyBad(dirs)
    ensures Walk(dirs).Success?
    ensures forall i, f :: 0 <= i < |Walk(dirs).value.chapters| && f in Walk(dirs).value.chapters[i].files ==>
      f.name !in DescriptionFiles
  {
    WalkFailsIff(dirs);
    WalkChapterGather(dirs);
    var chs := Walk(dirs).value.chapters;
    forall i | 0 <= i < |chs| {
      GatherListable(dirs, chs[i].name);
    }
  }
}

=== FILE: walkthrough.dfy ===
/**
 * A worked archive, evaluated through the walk, the chapter sort and the
 * assembly: `a.py` and `b.md` at the top; `pkg/` holding `c.go`, an
 * unreadable `d.bin` and a `README.md` describing the folder.
 */
module Walkthrough {
  import opened Wrappers
  import opened Text
  import opened Sorting
  import opened Walker
  import opened Assembly
  import opened Notebook

  const A: FileRef := FileRef("a.py", Some("x"))
  const B: FileRef := FileRef("b.md", Some("z"))
  const C: FileRef := FileRef("c.go", Some("y"))
  const D: FileRef := FileRef("d.bin", None)
  const Readme: FileRef := FileRef("README.md", Some("Pkg description\n"))

  /** The walk meets the files in directory order, not name order. */
  const RootDir: DirRecord := DirRecord(".", [B, A])
  const PkgDir: DirRecord := DirRecord("pkg", [D, Readme, C])

  const Chapters: seq<Chapter> := [Chapter("Root", [A, B]), Chapter("pkg", [C, D])]

  lemma SortRoot()
    ensures Sort(RootDir.files, NameOf) == [A, B]
  {
    assert RootDir.files[1..] == [A];
    assert Sort([A], NameOf) == [A] by {
      assert [A][1..] == [];
    }
    assert LessEq("a.py", "b.md");
    assert !LessEq("b.md", "a.py");
    assert [A][1..] == [];
    assert Insert(B, [], NameOf) == [B];
    assert Insert(B, [A], NameOf) == [A] + [B];
  }

  lemma KeepRoot()
    ensures KeepListable([A, B]) == [A, B]
  {
    assert [A, B][1..] == [B] && [B][1..] == [];
    assert KeepListable([B]) == [B];
  }

  lemma RootListing()
    ensures Listing(RootDir) == [A, B]
  {
    SortRoot();
    KeepRoot();
  }

  lemma RootUndescribed()
    ensures FindDescription(RootDir.files).None?
  {
    assert !HasFile(RootDir.files, DescriptionFiles[0]);
    assert !HasFile(RootDir.files, DescriptionFiles[1]);
    assert !HasFile(RootDir.files, DescriptionFiles[2]);
  }

  lemma InsertD()
    ensures Insert(D, [Readme, C], NameOf) == [Readme, C, D]
  {
    assert !LessEq("d.bin", "README.md") && !LessEq("d.bin", "c.go");
    assert [Readme, C][1..] == [C] && [C][1..] == [];
    assert Insert(D, [], NameOf) == [D];
    assert Insert(D, [C], NameOf) == [C] + [D];
    assert Insert(D, [Readme, C], NameOf) == [Readme] + [C, D];
  }

  lemma SortPkg()
    ensures Sort(PkgDir.files, NameOf) == [Readme, C, D]
  {
    assert PkgDir.files[1..] == [Readme, C] && PkgDir.files[1..][1..] == [C];
    assert [C][1..] == [];
    assert Sort([C], NameOf) == [C];
    assert LessEq("README.md", "c.go");
    assert Insert(Readme, [C], NameOf) == [Readme, C];
    assert Sort([Readme, C], NameOf) == [Readme, C];
    InsertD();
  }

  lemma KeepPkg()
    ensures KeepListable([Readme, C, D]) == [C, D]
  {
    assert [Readme, C, D][1..] == [C, D] && [C, D][1..] == [D] && [D][1..] == [];
    assert KeepListable([D]) == [D];
    assert KeepListable([C, D]) == [C, D];
    assert !Listable(Readme);
  }

  lemma PkgListing()
    ensures Listing(PkgDir) == [C, D]
  {
    SortPkg();
    KeepPkg();
  }

  lemma PkgDescription()
    ensures FindDescription(PkgDir.files) == Some(Readme)
  {
    assert PkgDir.files[1] == Readme;
    assert HasFile(PkgDir.files, DescriptionFiles[0]);
    assert FirstPresent(PkgDir.files, DescriptionFiles) == Some(0);
    assert PkgDir.files[1..][0] == Readme;
    assert Lookup(PkgDir.files[1..], "README.md") == Some(Readme);
    assert Lookup(PkgDir.files, "README.md") == Some(Readme);
  }

  lemma ReadmeNote()
    ensures Strip(Readme.text.value) == "Pkg description"
  {
    assert "" + "Pkg description" + "\n" == Readme.text.value;
    StripPadded("", "Pkg description", "\n");
  }

  const AfterRoot: Tree := Tree([Chapter("Root", [A, B])], map[])

  /** Files appended under a key no chapter has yet form a new last chapter. */
  lemma AppendFresh(chs: seq<Chapter>, key: string, fs: seq<FileRef>)
    requires !HasChapter(chs, key)
    ensures AppendFiles(SetDefault(chs, key), key, fs) == chs + [Chapter(key, fs)]
  {
    var started := SetDefault(chs, key);
    assert started == chs + [Chapter(key, [])];
    var r := AppendFiles(started, key, fs);
    var want := chs + [Chapter(key, fs)];
    forall i | 0 <= i < |chs| ensures r[i] == want[i] {
      assert started[i] == chs[i] && chs[i].name != key;
    }
    assert r[|chs|] == want[|chs|] by {
      assert started[|chs|].files + fs == fs;
    }
  }

  lemma AppendRoot()
    ensures AppendFiles(SetDefault([], "Root"), "Root", [A, B]) == AfterRoot.chapters
  {
    AppendFresh([], "Root", [A, B]);
    assert [] + [Chapter("Root", [A, B])] == AfterRoot.chapters;
  }

  lemma VisitRoot()
    ensures Visit(Tree([], map[]), RootDir) == Success(AfterRoot)
  {
    RootListing();
    RootUndescribed();
    AppendRoot();
    assert ChapterKey(RootDir.relPath) == "Root";
    assert !BadDescription(RootDir);
  }

  lemma AppendPkg()
    ensures AppendFiles(SetDefault(AfterRoot.chapters, "pkg"), "pkg", [C, D]) == Chapters
  {
    assert AfterRoot.chapters[0].name != "pkg";
    AppendFresh(AfterRoot.chapters, "pkg", [C, D]);
  }

  lemma DescribePkg()
    ensures !BadDescription(PkgDir)
    ensures Describe(map[], "pkg", PkgDir) == map["pkg" := "Pkg description"]
  {
    PkgDescription();
    ReadmeNote();
  }

  lemma PkgKey()
    ensures ChapterKey(PkgDir.relPath) == "pkg"
  {
  }

  lemma VisitPkg()
    ensures Visit(AfterRoot, PkgDir) == Success(Tree(Chapters, map["pkg" := "Pkg description"]))
  {
    PkgListing();
    AppendPkg();
    DescribePkg();
    PkgKey();
  }

  /** A walk of two directories with readable descriptions is the two visits in turn. */
  lemma WalkPair(d1: DirRecord, d2: DirRecord)
    requires !BadDescription(d1) && !BadDescription(d2)
    ensures Visit(Tree([], map[]), d1).Success?
    ensures Visit(Visit(Tree([], map[]), d1).value, d2).Success?
    ensures Walk([d1, d2]) == Visit(Visit(Tree([], map[]), d1).value, d2)
  {
    WalkOne(d1);
    WalkSecond(d1, d2);
  }

  lemma WalkOne(d: DirRecord)
    ensures Walk([d]) == Visit(Tree([], map[]), d)
  {
    assert [d][..0] == [];
  }

  lemma WalkSecond(d1: DirRecord, d2: DirRecord)
    requires Walk([d1]).Success?
    ensures Walk([d1, d2]) == Visit(Walk([d1]).value, d2)
  {
    var ds := [d1, d2];
    assert ds == [d1] + [d2];
    WalkSnoc([d1], d2);
  }

  lemma WalkExample()
    ensures Walk([RootDir, PkgDir]) == Success(Tree(Chapters, map["pkg" := "Pkg description"]))
  {
    VisitRoot();
    VisitPkg();
    RootUndescribed();
    DescribePkg();
    WalkPair(RootDir, PkgDir);
  }

  /** "Root" sorts before "pkg": upper-case letters precede lower-case ones in code-point order. */
  lemma SortExample()
    ensures Sort(Chapters, ChapterName) == Chapters
  {
    assert LessEq("Root", "pkg");
    assert Chapters[1..] == [Chapter("pkg", [C, D])];
    assert Sort([Chapter("pkg", [C, D])], ChapterName) == [Chapter("pkg", [C, D])];
  }

  lemma AnchorExamples()
    ensures TocHref(0, "a.py") == "#file0-a.py" && TocHref(0, "b.md") == "#file0-b.md"
    ensures TocHref(1, "c.go") == "#file1-c.go" && TocHref(1, "d.bin") == "#file1-d.bin"
    ensures FileAnchor(1, "a.py") == "file1-a.py" && FileAnchor(1, "b.md") == "file1-b.md"
    ensures FileAnchor(2, "c.go") == "file2-c.go"
    ensures ChapterAnchor(1) == "chapter1" && ChapterAnchor(2) == "chapter2"
  {
    SmallNumerals();
  }

  lemma SmallNumerals()
    ensures NatToString(0) == "0" && NatToString(1) == "1" && NatToString(2) == "2"
  {
    assert DigitChar(0) == '0' && DigitChar(1) == '1' && DigitChar(2) == '2';
  }

  lemma TocExample()
    ensures TocEntries(Chapters, 0) == ExpectedToc
  {
    AnchorExamples();
    assert Chapters[1..][1..] == [];
    assert [A, B][1..] == [B] && [B][1..] == [] && [C, D][1..] == [D] && [D][1..] == [];
    assert TocLinks([B], 0) == [TocLink("#file0-b.md", "b.md")];
    assert TocLinks([D], 1) == [TocLink("#file1-d.bin", "d.bin")];
    assert TocLinks([A, B], 0) == [TocLink("#file0-a.py", "a.py"), TocLink("#file0-b.md", "b.md")];
    assert TocLinks([C, D], 1) == [TocLink("#file1-c.go", "c.go"), TocLink("#file1-d.bin", "d.bin")];
    assert TocEntries(Chapters[1..], 1) ==
      [TocChapter("pkg"), TocLink("#file1-c.go", "c.go"), TocLink("#file1-d.bin", "d.bin"), TocChapterClose];
  }

  lemma RootSections(hl: Highlighter)
    requires forall n, c :: hl(n, c) == Some(c)
    ensures FileSections([A, B], 1, hl) ==
      [FileHeading("file1-a.py", "a.py"), Highlighted("x"), FileHeading("file1-b.md", "b.md"), Highlighted("z")]
  {
    AnchorExamples();
    assert [A, B][1..] == [B] && [B][1..] == [];
    assert Highlight(A, hl) == Some("x") && Highlight(B, hl) == Some("z");
    assert FileSections([B], 1, hl) == [FileHeading("file1-b.md", "b.md"), Highlighted("z")];
  }

  lemma PkgSections(hl: Highlighter)
    requires forall n, c :: hl(n, c) == Some(c)
    ensures FileSections([C, D], 2, hl) == [FileHeading("file2-c.go", "c.go"), Highlighted("y")]
  {
    AnchorExamples();
    assert [C, D][1..] == [D] && [D][1..] == [];
    assert Highlight(C, hl) == Some("y") && Highlight(D, hl) == None;
    assert FileSections([D], 2, hl) == [];
  }

  lemma PkgChapterSection(hl: Highlighter)
    requires forall n, c :: hl(n, c) == Some(c)
    ensures Sections(Chapters[1..], 2, map["pkg" := "Pkg description"], hl) ==
      [ChapterHeading("chapter2", "pkg"), Description("Pkg description"), FileHeading("file2-c.go", "c.go"), Highlighted("y")]
  {
    var descs := map["pkg" := "Pkg description"];
    AnchorExamples();
    PkgSections(hl);
    assert Chapters[1..][1..] == [];
    assert DescriptionPart("pkg", descs) == [Description("Pkg description")];
  }

  lemma SectionsExample(hl: Highlighter)
    requires forall n, c :: hl(n, c) == Some(c)
    ensures Sections(Chapters, 1, map["pkg" := "Pkg description"], hl) == ExpectedBody
  {
    var descs := map["pkg" := "Pkg description"];
    AnchorExamples();
    RootSections(hl);
    PkgChapterSection(hl);
    assert DescriptionPart("Root", descs) == [];
  }

  lemma DocumentExample(hl: Highlighter)
    requires forall n, c :: hl(n, c) == Some(c)
    ensures Document("T", "", Chapters, map["pkg" := "Pkg description"], hl) == ExpectedNotebook
  {
    TocExample();
    SectionsExample(hl);
    DocumentShape("T", "", Chapters, map["pkg" := "Pkg description"], hl);
  }

  /** The table of contents of the example: every file linked, numbered from 0. */
  const ExpectedToc: seq<Element> := [
    TocChapter("Root"), TocLink("#file0-a.py", "a.py"), TocLink("#file0-b.md", "b.md"), TocChapterClose,
    TocChapter("pkg"), TocLink("#file1-c.go", "c.go"), TocLink("#file1-d.bin", "d.bin"), TocChapterClose]

  /** The body of the example: chapters numbered from 1, `d.bin` skipped. */
  const ExpectedBody: seq<Element> := [
    ChapterHeading("chapter1", "Root"),
    FileHeading("file1-a.py", "a.py"), Highlighted("x"), FileHeading("file1-b.md", "b.md"), Highlighted("z"),
    ChapterHeading("chapter2", "pkg"), Description("Pkg description"),
    FileHeading("file2-c.go", "c.go"), Highlighted("y")]

  /** The document for the archive under title "T", with a highlighter that returns the code unchanged. */
  const ExpectedNotebook: seq<Element> :=
    [Prelude(""), Title("T"), TocOpen] + ExpectedToc + [TocClose] + (ExpectedBody + [Close])

  /**
   * The notebook for the archive: the table of contents lists `d.bin`, which
   * the body skips, and every link is numbered one below its heading, so
   * `#file1-c.go` names no heading at all while `c.go` is headed `file2-c.go`.
   */
  lemma NotebookExample(hl: Highlighter)
    requires forall n, c :: hl(n, c) == Some(c)
    ensures GenerateNotebook("T", [RootDir, PkgDir], "", hl) == Success(ExpectedNotebook)
  {
    WalkExample();
    SortExample();
    DocumentExample(hl);
  }
}

=== FILE: wrappers.dfy ===
/** Failure-carrying wrappers used across the model. */
module Wrappers {

  /** A value that may be absent. */
  datatype Option<+T> = None | Some(value: T) {

    /** Returns the value in Some, or the default if None. */
    function GetOr(default: T): T {
      match this
      case Some(v) => v
      case None => default
    }
  }

  /** The outcome of a step that either succeeds with a value or fails with an error. */
  datatype Result<+R, +E> = Success(value: R) | Failure(error: E)
}
